=== FILE: README.md ===
# Pa'donde: a verified model of the route API and the map client

This project models the two parts of Pa'donde that hold its logic, and proves properties of both.

- **The local Express API** (`src/backend/server.js`) manages the `usuario` and `routes` tables. Its pure helpers split names, map rows to JSON objects, normalise e-mail addresses and recognise bcrypt hashes. The `/api/users`, `/api/auth/login` and `/api/routes` handlers create, read, update and delete rows and report specific error statuses. The login handler also migrates legacy plain-text credentials to bcrypt hashes.
- **The renderer of the desktop client** (`src/renderer.js`) is an event-driven state machine. Its state is:
  - the origin and destination pick modes;
  - the free-drawing mode, with its points and markers;
  - the enabled state of the route buttons;
  - which screen is visible;
  - the list of accounts kept in local storage, which the login and registration forms use.

The model is in five modules:

| file | module | contents |
|---|---|---|
| `option.dfy` | `Optional` | `Option`, for JavaScript's `null`/`undefined` |
| `text.dfy` | `Text` | the JavaScript string operations the core uses: `\s`, `trim`, `toLowerCase`, `split(/\s+/)`, `join` |
| `records.dfy` | `Records` | table rows (typed by the nullability the schema declares), the JSON objects, `splitName`, `mapUser`, `mapRoute`, `normalizeEmail`, `isBcryptHash`, the login credential check |
| `handlers.dfy` | `Handlers` | the class `RouteApi`: both tables as maps from auto-increment id to row, one method per handler |
| `client.dfy` | `Client` | the class `MapClient`: the renderer's module-level variables as fields, one method per DOM handler |

Both tables are in-memory maps. The store invariant `RouteApi.Valid` holds the constraints of the schema in `src/backend/sequelize.js` (lines 24-98):
- every row sits under its own id, below the next id to be handed out;
- e-mail addresses are unique.

Inputs the handlers get from outside are parameters:
- the clock (`now`);
- the value `bcrypt.hash` returns, which is required to start with `$2`;
- the answer `bcrypt.compare` gives;
- whether writing back a migrated credential succeeded;
- the `betaAllowAnyLogin` flag.

Leaflet layers are opaque tokens (`Layer`) handed out by a counter.

Some consequences proved along the way:
- `POST /api/users` answers with a first name that is the first of all the words of the given first and last names, and a last name that is the remaining words joined by single spaces, however they were padded or spaced (`CreatedUserShown`). So a one-word first name and a last name of single-spaced words are shown back exactly (`CreatedUserKeepsNames`).
- A legacy credential migrates once; the same password then matches through bcrypt (`MigrationRoundTrip`).
- A legacy plain password that itself starts with `$2` is taken for a hash, so it is never compared as plain text (`LegacyLookalikeNotMigrated`).
- Whether the migrated hash is saved does not change the login response (`UpgradeFailureInvisible`).
- The newest route heads the route list (`NewestRouteFirst`).
- Registration keeps passwords untrimmed but login trims them. So a local account whose password starts or ends with white space can never sign in through the stored list (`PaddedPasswordNeverMatches`).

Two behaviours of `PUT /api/routes/:id` (`src/backend/server.js`, lines 230-251) are worth stating:
- it does not reject an empty name; it stores it;
- an omitted name makes the NOT NULL `name` column's validation fail, so the request ends in the generic 500 answer with nothing changed, even for an unknown id.

## Model

| member | source | states |
|---|---|---|
| Text.Trim | src/backend/server.js:73 | `trim` leaves no white space at either end and never lengthens the string |
| Text.TrimSplits | src/backend/server.js:73 | the trimmed string is the input with only white space cut from each end, and has no white space at either end |
| Text.TrimOfUnique | src/backend/server.js:73 | there is only one way to cut white space from both ends and leave no white space at either end |
| Text.TrimMeaning | src/backend/server.js:73 | `trim(s)` is `t` exactly when `t` is `s` with only white space cut from each end and none left at either end |
| Text.Lower | src/backend/server.js:73 | `toLowerCase` keeps the length and lower-cases each character in place |
| Text.TrimEmpty | src/backend/server.js:43 | trimming gives the empty string exactly when the input is all white space |
| Text.LowerTrim | src/backend/server.js:73 | lower-casing and trimming commute |
| Text.Words | src/backend/server.js:33 | the chunks are non-empty and free of white space, and there is at least one when the string starts with a non-space |
| Text.WordsOfSpread | src/backend/server.js:33 | words with any white space around them and at least one white-space character between each two split back into exactly those words |
| Text.SpreadOfWords | src/backend/server.js:33 | every string is its words with white-space gaps around them and non-empty gaps between them |
| Text.WordsMeaning | src/backend/server.js:33 | the chunks of `s` are the words `ws` exactly when `s` is `ws` with white-space gaps, non-empty between words |
| Text.WordsOfTrim | src/backend/server.js:32-33 | trimming first does not change the words |
| Text.WordsAround | src/backend/server.js:33 | joining two strings with white space between them gives the words of the first followed by the words of the second |
| Text.Join | src/backend/server.js:36 | with at least one part, the joined string has the total length of the parts plus one separator between each two, and starts with the first part |
| Text.WordsOfJoin | src/backend/server.js:33-36 | splitting words joined by single spaces gives the same words back |
| Records.SplitName | src/backend/server.js:31-38 | the first name never contains white space |
| Records.SplitOnSpaceRuns | src/backend/server.js:33 | a trimmed string splits into at least one chunk, and a non-empty one into words only |
| Records.SplitNameWords | src/backend/server.js:31-38 | for any name, however padded or spaced: two empty parts when it has no words, otherwise its first word and the other words joined by single spaces |
| Records.SplitNameSpread | src/backend/server.js:31-38 | a name made of given words with any white space around and between them splits into the first word and the others joined by single spaces |
| Records.SplitNameBlank | src/backend/server.js:31-37 | the first name is empty exactly when the name is null or blank, and a blank name gives `('', '')` |
| Records.SplitNameOfJoin | src/backend/server.js:33-37 | a name of single-spaced words splits into its first word and the remaining words joined by single spaces |
| Records.NormalizeEmail | src/backend/server.js:73 | the result is trimmed and already lower case; a missing address gives `''` |
| Records.NormalizeEmailOf | src/backend/server.js:73 | the normalised address is the given one with only white space cut from its ends, lower-cased |
| Records.NormalizeEmailKeeps | src/backend/server.js:73 | an address already trimmed and lower case is kept as it is |
| Records.NormalizeEmailIdempotent | src/backend/server.js:73 | normalising twice is normalising once |
| Records.NormalizeEmailIgnoresCase | src/backend/server.js:73 | addresses that differ only in letter case normalise to the same address |
| Records.IsBcryptHash | src/backend/server.js:74 | holds exactly for strings that start with `$2` |
| Records.CheckCredential | src/backend/server.js:160-175 | a bcrypt value is decided by `bcrypt.compare`; any other value matches only the identical password and then asks for migration; null never matches |
| Records.LegacyLookalikeNotMigrated | src/backend/server.js:160-175 | a plain stored password that starts with `$2` is treated as a hash: only `bcrypt.compare` decides, and it is never migrated |
| Records.MigrationRoundTrip | src/backend/server.js:163-170 | a matching legacy credential is migrated; the new hash differs from the plain value and the same password then matches through bcrypt with nothing left to migrate |
| Records.StoredName | src/backend/server.js:118-120 | the stored `nombre` is trimmed |
| Records.StoredNameOfWords | src/backend/server.js:118-120 | a one-word first name and a single-spaced last name are stored as all the words joined by single spaces |
| Records.StoredNameWords | src/backend/server.js:118-120 | the words of the stored name are the words of the first name followed by those of the last name, whatever white space surrounded them |
| Records.StoredNameSplits | src/backend/server.js:118-120 | a stored name splits back into the first of all the words of the first and last names, and the remaining words joined by single spaces |
| Records.MapUser | src/backend/server.js:40-56 | the object carries the row's id, e-mail, creation, update and last-login times, and `active` is true exactly when `activo` is 1 |
| Records.MapUserNames | src/backend/server.js:43-49 | the object never depends on the credential; `name` is the trimmed `nombre`; the first name is the first word of `nombre` and the last name the other words joined by single spaces; both are empty exactly for a blank name |
| Records.MapRoute | src/backend/server.js:58-71 | the object carries the id, the name and the four coordinates, null when absent |
| Handlers.KeysDescending | src/backend/server.js:192 | strictly descending ids, all in the table, and every id of the table appears |
| Handlers.UserListing | src/backend/server.js:79-83 | the users in strictly descending id order, each the mapped row of its id, and every id of the table present |
| Handlers.RouteListing | src/backend/server.js:192-193 | the routes in strictly descending id order, each the mapped row of its id, and every id of the table present |
| Handlers.NewUserRow | src/backend/server.js:117-124 | the new row has the given id, the stored name built from the first and last names, the normalised address, the bcrypt hash as credential, `activo` 1, both times `now`, and no last login |
| Handlers.CreatedUserShown | src/backend/server.js:117-132 | the created user is shown with the first of all the given words as first name, the other words joined by single spaces as last name, the stored name, the normalised address, active, and never logged in |
| Handlers.CreatedUserKeepsNames | src/backend/server.js:117-132 | a one-word first name and a last name of single-spaced words are shown back exactly as given |
| Handlers.AfterLogin | src/backend/server.js:168-181 | a successful login sets `ultimo_login`, replaces the credential only when migrated, and changes nothing else but the update time |
| Handlers.RouteRowOf | src/backend/server.js:217-223 | a route row takes its name and all four coordinates from the request, absent ones as null |
| Handlers.InsertUserKeyed | src/backend/sequelize.js:24-38 | inserting a row under the next id with an unused address keeps ids and addresses unique |
| Handlers.ReplaceUserKeyed | src/backend/sequelize.js:24-38 | replacing a row by one with the same id and address keeps ids and addresses unique |
| Handlers.CaseVariantInUse | src/backend/server.js:110-115 | an address in use stays in use under any change of case, so its case variants are refused with 409 |
| Handlers.NewestRouteFirst | src/backend/server.js:190-193 | the route with the largest id heads the list |
| Handlers.UpgradeFailureInvisible | src/backend/server.js:168-183 | whether the migrated credential is saved or not, the login answers with the same user object |
| Handlers.RouteApi.ListUsers | src/backend/server.js:77-87 | 200 with every user, newest id first |
| Handlers.RouteApi.GetUser | src/backend/server.js:89-101 | 200 with the mapped row, or 404 for an unknown id |
| Handlers.RouteApi.CreateUser | src/backend/server.js:103-133 | 400 when first name, e-mail or password is missing; 409 with the table unchanged when the normalised address is in use; otherwise exactly one new row under the next id, answered with 201 |
| Handlers.RouteApi.InsertUser | src/backend/server.js:119-124 | the row goes in under the next id, which was free, and the next id advances |
| Handlers.RouteApi.UpdateUser | src/backend/server.js:170 | the row under the id is replaced and no other row changes |
| Handlers.RouteApi.DeleteUser | src/backend/server.js:135-145 | 404 with nothing changed for an unknown id, otherwise 204 and the row is gone |
| Handlers.RouteApi.Login | src/backend/server.js:147-187 | 400 on a missing address or password; 401 when no user has the normalised address or the credential does not match; otherwise 200 with the updated row, where only that row changes |
| Handlers.RouteApi.ListRoutes | src/backend/server.js:190-197 | 200 with every route, newest id first |
| Handlers.RouteApi.GetRoute | src/backend/server.js:199-209 | 200 with the mapped row, or 404 for an unknown id |
| Handlers.RouteApi.CreateRoute | src/backend/server.js:211-228 | 400 for a missing or empty name; otherwise exactly one new row under the next id, absent coordinates null, answered with 201 |
| Handlers.RouteApi.UpdateRoute | src/backend/server.js:230-251 | an omitted name ends in 500 with nothing changed; an unknown id gives 404 with nothing changed; otherwise all five fields are overwritten (omitted coordinates null) and no other row changes |
| Handlers.RouteApi.DeleteRoute | src/backend/server.js:253-263 | 404 with nothing changed for an unknown id, otherwise 204 and the row is gone |
| Client.FindAccount | src/renderer.js:269 | the first stored account that matches, or none when no account matches |
| Client.Authenticate | src/renderer.js:262-275 | lets in exactly when beta is on or a stored account matches; outside beta the first match becomes the session, in beta none is written |
| Client.LoginCheck | src/renderer.js:254-279 | missing credentials exactly when a trimmed field is empty; invalid credentials exactly when both are filled, beta is off and no stored account matches the trimmed fields; logged in exactly otherwise; outside beta the first match is the session, otherwise there is none |
| Client.EmailRegistered | src/renderer.js:350 | true exactly when some stored account's lower-cased address is the given one |
| Client.RegistrationCheck | src/renderer.js:335-353 | each of the four outcomes holds exactly under its condition: a field empty after trimming, else the confirmation differs, else the address is taken ignoring case, else registered |
| Client.NewAccount | src/renderer.js:335-356 | the stored account has a trimmed name, a trimmed lower-case address and the password as typed |
| Client.NewAccountOf | src/renderer.js:335-336 | the stored name is the typed name with only white space cut from its ends, and the stored address is the typed one cut the same way and lower-cased |
| Client.AppendKeepsEmailsDistinct | src/renderer.js:349-357 | appending an account whose address is not taken keeps addresses distinct ignoring case |
| Client.NewAccountLogin | src/renderer.js:254-269 | a registered account signs in exactly when the typed address agrees ignoring case and surrounding space and the trimmed typed password equals the stored one |
| Client.PaddedPasswordNeverMatches | src/renderer.js:254-269 | an account whose password starts or ends with white space never matches a login |
| Client.MapClient.constructor | src/renderer.js:12-41 | the initial state: login screen, no map, nothing picked or drawn |
| Client.MapClient.InitMap | src/renderer.js:43-45 | the map exists afterwards, created at most once |
| Client.MapClient.MaybeEnableCalc | src/renderer.js:89-91 | the calculate button is disabled exactly when origin or destination is unset |
| Client.MapClient.CalcPlannedRoute | src/renderer.js:93-97 | does nothing unless both origin and destination are set; then a new planned line replaces the old one |
| Client.MapClient.CalcRouteClick | src/renderer.js:217-222 | creates the map if needed, then draws the planned line as above |
| Client.MapClient.AddRoutePoint | src/renderer.js:108-116 | one point and one marker appended; the route line is created by the first point and kept afterwards |
| Client.MapClient.ClearRoute | src/renderer.js:121-135 | no points, markers or line; drawing off; start enabled; finish and clear disabled |
| Client.MapClient.StartClick | src/renderer.js:161-169 | drawing on, start disabled, finish and clear enabled |
| Client.MapClient.FinishClick | src/renderer.js:171-179 | drawing off with the points kept, start enabled, finish disabled, clear disabled exactly when there are no points |
| Client.MapClient.ClearClick | src/renderer.js:181-185 | the effect of `clearRoute` |
| Client.MapClient.BackClick | src/renderer.js:188-200 | the session is forgotten, the drawn route is removed and the login screen replaces the map |
| Client.MapClient.SelectOriginClick | src/renderer.js:203-209 | origin selection on, destination selection off |
| Client.MapClient.SelectDestClick | src/renderer.js:210-216 | destination selection on, origin selection off |
| Client.MapClient.MapClick | src/renderer.js:62-86 | origin mode first, then destination mode, then drawing: a pick stores the point, leaves the other pick and the route alone and resets the calculate button; with no pick mode it appends one point when drawing and changes nothing otherwise |
| Client.MapClient.ShowScreen | src/renderer.js:303-309 | exactly the chosen screen is displayed |
| Client.MapClient.ShowRegisterClick | src/renderer.js:311-316 | only the registration screen is displayed |
| Client.MapClient.RegisterBackClick | src/renderer.js:318-322 | only the login screen is displayed |
| Client.MapClient.LoginSubmit | src/renderer.js:251-291 | missing credentials exactly when a trimmed field is empty; invalid credentials exactly when both are filled, beta is off and no stored account matches; logged in exactly otherwise; outside beta the first match becomes the session; success shows the map and enables start, and any refusal changes nothing |
| Client.MapClient.EnterMap | src/renderer.js:281-290 | the session is written when there is one, the login screen is hidden, the map shown and created, and start enabled |
| Client.MapClient.RegisterSubmit | src/renderer.js:332-368 | each of the four outcomes holds exactly under its condition (a field empty; the confirmation differs; the address is taken ignoring case; none of these); a refusal changes nothing; a registration appends exactly the new account, makes it the session and shows only the map screen; distinct addresses stay distinct |
| Client.MapClient.AddAccount | src/renderer.js:356-366 | the account is appended, becomes the session, only the map screen is shown, the map is created and start enabled |

## Left out

- Text.IsSpace: white space is the six ASCII white-space characters only. JavaScript's `\s` and `trim` also treat the non-breaking space, the Unicode space separators, the line and paragraph separators and the byte-order mark as white space.
- Text.LowerChar: `toLowerCase` is modelled for the upper-case letters of Basic Latin and Latin-1 only.
- Records.MapUser, Records.MapRoute: the `null` result for a missing entity is left out, and so are the alternative column names (`name`, `id`, `created_at`, `createdAt` and the like). The handlers always pass a row read from the table under its schema's column names.
- Records.MapUser: `activo` is a NOT NULL number column, so the `undefined` branch of `active` is never taken. Likewise `email ?? null` always finds an address.
- Records.SplitName: the `chunks.length === 0` test can never succeed and has no counterpart.
- Column widths (`STRING(120)`, `STRING(160)`) and the rounding of coordinates to `DECIMAL(10, 6)` are not modelled. The value stored is the value sent.
- The generic 500 handler is reduced to its status and message; the `detail` text is left out. Other persistence failures, such as a lost connection or a duplicate key raised by the database, are left out.
- Handlers.RouteApi.Login: when writing back a migrated hash fails, Sequelize leaves the new value set on the loaded instance, where the next save may still write it. The model keeps the old credential in that case.
- Ids come from the URL as strings. A non-numeric id is left out.
- Handlers.RouteApi.CreateRoute, Handlers.RouteApi.UpdateRoute: a request without a body is left out. Both handlers read `req.body` before their `try` (`src/backend/server.js`, lines 212 and 231), so such a request throws outside the handler.
- Handlers.RouteApi.CreateUser, Handlers.RouteApi.Login, Handlers.RouteApi.CreateRoute, Handlers.RouteApi.UpdateRoute: request bodies are assumed to carry strings, and numbers for the coordinates. JSON values of other types are left out. A truthy non-string `email` or `firstName` makes `trim` throw (lines 73, 110, 118 and 154). A truthy non-string `password` is rejected by `bcrypt.hash` or `bcrypt.compare` (lines 117 and 164-169). These failures would answer with the generic 500, and the model does not produce them. A falsy non-string such as `0` or `false` would be refused with 400 like a missing field.
- Sequelize's `findAll`/`findOne`/`update`/`destroy`, the MySQL pool, Express middleware, CORS and `app.listen` are left out; the in-memory maps stand in for them.
- Handlers.RouteApi.CreateUser, Handlers.RouteApi.Login: the model compares normalised addresses character by character. The database compares them under the `email` column's collation (`src/backend/server.js`, lines 112 and 155; the unique index in `src/backend/sequelize.js`, lines 34-38). No file sets that collation, and MySQL's default collations ignore case and, by default, accents. So the database treats `josé@x.mx` and `jose@x.mx`, or a legacy `Ana@X.mx` and `ana@x.mx`, as the same address, and the model does not. `Handlers.UsersKeyed` therefore allows rows the unique index would refuse: where the source answers 409, the model's `CreateUser` may answer 201, and where the source goes on to the credential check, the model's `Login` may answer 401.
- bcrypt's salting and hashing are foreign code. Only the `$2` prefix of a hash and the answer of `bcrypt.compare` are kept.
- The distance shown for a drawn route or a planned route is floating-point Leaflet geometry and is left out (`updateDistanceInfo`, the distance part of `calcPlannedRoute`). So are the m/km formatting and the `toFixed(5)` coordinate text.
- Leaflet itself (tile layer, markers drawn or removed on the map, `setLatLngs`, `fitBounds`) is left out. Layers are tokens, and the model records only which token each variable holds.
- The geolocation button and its timers are left out (`src/renderer.js`, lines 225-248). So is `applyModelPreference` with its `fetch` (lines 371-396).
- Reading and writing local storage is left out. The account list and the session are fields; `JSON.parse` and `JSON.stringify` are not modelled.
- Alerts are reduced to the outcome values `LoginOutcome` and `RegisterOutcome`.
- Client.MapClient.LoginSubmit, Client.MapClient.RegisterSubmit: the 50 ms timer after a login or registration is folded into the submit. The map is created and the start button enabled at once.
- Client.MapClient.constructor: the page markup is not part of the model. The buttons' initial enabled state is a parameter, and the DOM elements are assumed present.
- `src/backend/db.js`, `src/backend/config.js`, `src/config.js`, `main.js` and `src/preload.js` are not part of this model.

=== FILE: client.dfy ===
/**
 * The renderer of the desktop client: the map screen's selection and drawing
 * modes, its buttons, and the login and registration forms, which work only
 * against the list of accounts kept in the browser's local storage.
 */
module Client {
  import opened Optional
  import opened Text

  /** A point clicked on the map. */
  datatype LatLng = LatLng(lat: real, lng: real)

  /** A Leaflet layer (marker or polyline), known only by its identity. */
  type Layer = nat

  /** An account of the locally stored user list. */
  datatype LocalUser = LocalUser(name: string, email: string, password: string)

  /** The session record stored after a login or a registration. */
  datatype Session = Session(name: string, email: string)

  datatype Screen = LoginScreen | RegisterScreen | MapScreen

  datatype LoginOutcome =
    | LoggedIn
    | MissingCredentials     // empty e-mail or password after trimming
    | InvalidCredentials     // no stored account matches

  datatype RegisterOutcome =
    | Registered
    | MissingField           // some field is empty
    | PasswordMismatch       // the confirmation differs from the password
    | EmailTaken             // an account with that address exists, ignoring case

  /** The test the login form applies to a stored account: the address ignoring case, the password exactly. */
  predicate Matches(u: LocalUser, email: string, password: string) {
    Lower(u.email) == Lower(email) && u.password == password
  }

  /** Some stored account has the address `email` once its own address is lower-cased. */
  predicate EmailTakenIn(users: seq<LocalUser>, email: string) {
    exists i :: 0 <= i < |users| && Lower(users[i].email) == email
  }

  /** No two stored accounts share an address, ignoring case. */
  predicate EmailsDistinct(users: seq<LocalUser>) {
    forall i, j :: 0 <= i < j < |users| ==> Lower(users[i].email) != Lower(users[j].email)
  }

  /** `users.find` in the login form: the first account that matches, if any. */
  method FindAccount(users: seq<LocalUser>, email: string, password: string) returns (found: Option<nat>)
    ensures found.Some? ==>
      && found.value < |users|
      && Matches(users[found.value], email, password)
      && forall j :: 0 <= j < found.value ==> !Matches(users[j], email, password)
    ensures found.None? ==> forall j :: 0 <= j < |users| ==> !Matches(users[j], email, password)
  {
    var i := 0;
    while i < |users|
      invariant 0 <= i <= |users|
      invariant forall j :: 0 <= j < i ==> !Matches(users[j], email, password)
    {
      if Lower(users[i].email) == Lower(email) && users[i].password == password {
        return Some(i);
      }
      i := i + 1;
    }
    return None;
  }

  /**
   * Whether the login form lets the (trimmed, non-empty) credentials in, and
   * the session it then records: in beta anything is let in and no session is
   * written; otherwise the first matching stored account becomes the session.
   */
  method Authenticate(users: seq<LocalUser>, email: string, password: string, betaAllowAnyLogin: bool)
    returns (allow: bool, session: Option<Session>)
    ensures allow <==> betaAllowAnyLogin || exists i :: 0 <= i < |users| && Matches(users[i], email, password)
    ensures betaAllowAnyLogin || !allow ==> session.None?
    ensures !betaAllowAnyLogin && allow ==>
      exists i :: 0 <= i < |users| && Matches(users[i], email, password)
        && (forall j :: 0 <= j < i ==> !Matches(users[j], email, password))
        && session == Some(Session(users[i].name, users[i].email))
  {
    if betaAllowAnyLogin {
      return true, None;
    }
    var found := FindAccount(users, email, password);
    if found.None? {
      return false, None;
    }
    var u := users[found.value];
    return true, Some(Session(u.name, u.email));
  }

  /** `users.find` in the registration form: whether an account already has the (lower-case) address. */
  method EmailRegistered(users: seq<LocalUser>, email: string) returns (taken: bool)
    ensures taken <==> EmailTakenIn(users, email)
  {
    var i := 0;
    while i < |users|
      invariant 0 <= i <= |users|
      invariant forall j :: 0 <= j < i ==> Lower(users[j].email) != email
    {
      if Lower(users[i].email) == email {
        return true;
      }
      i := i + 1;
    }
    return false;
  }

  /**
   * The verdict of the login form on the typed fields: both must be non-empty
   * once trimmed; then with `betaAllowAnyLogin` anything is let in without a
   * session, and otherwise the first matching stored account becomes the
   * session, or the credentials are refused.
   */
  method LoginCheck(users: seq<LocalUser>, emailValue: string, passwordValue: string, betaAllowAnyLogin: bool)
    returns (outcome: LoginOutcome, session: Option<Session>)
    ensures outcome == MissingCredentials <==> Trim(emailValue) == [] || Trim(passwordValue) == []
    ensures outcome == InvalidCredentials <==>
      && Trim(emailValue) != [] && Trim(passwordValue) != [] && !betaAllowAnyLogin
      && forall i :: 0 <= i < |users| ==> !Matches(users[i], Trim(emailValue), Trim(passwordValue))
    ensures outcome == LoggedIn <==>
      && Trim(emailValue) != [] && Trim(passwordValue) != []
      && (betaAllowAnyLogin || exists i :: 0 <= i < |users| && Matches(users[i], Trim(emailValue), Trim(passwordValue)))
    ensures outcome != LoggedIn || betaAllowAnyLogin ==> session.None?
    ensures outcome == LoggedIn && !betaAllowAnyLogin ==>
      exists i :: 0 <= i < |users| && Matches(users[i], Trim(emailValue), Trim(passwordValue))
        && (forall j :: 0 <= j < i ==> !Matches(users[j], Trim(emailValue), Trim(passwordValue)))
        && session == Some(Session(users[i].name, users[i].email))
  {
    var email := Trim(emailValue);
    var password := Trim(passwordValue);
    if email == [] || password == [] {
      return MissingCredentials, None;
    }
    var allow;
    allow, session := Authenticate(users, email, password, betaAllowAnyLogin);
    outcome := if allow then LoggedIn else InvalidCredentials;
  }

  /**
   * The verdict of the registration form on the typed fields: some field
   * empty (the name and the address after trimming), else a confirmation that
   * differs, else an address already taken ignoring case, else registered.
   */
  method RegistrationCheck(users: seq<LocalUser>, nameValue: string, emailValue: string, passValue: string, pass2Value: string)
    returns (outcome: RegisterOutcome)
    ensures var u := NewAccount(nameValue, emailValue, passValue);
      var filled := u.name != [] && u.email != [] && passValue != [] && pass2Value != [];
      && (outcome == MissingField <==> !filled)
      && (outcome == PasswordMismatch <==> filled && passValue != pass2Value)
      && (outcome == EmailTaken <==> filled && passValue == pass2Value && EmailTakenIn(users, u.email))
      && (outcome == Registered <==> filled && passValue == pass2Value && !EmailTakenIn(users, u.email))
  {
    var u := NewAccount(nameValue, emailValue, passValue);
    if u.name == [] || u.email == [] || passValue == [] || pass2Value == [] {
      return MissingField;
    }
    if passValue != pass2Value {
      return PasswordMismatch;
    }
    var taken := EmailRegistered(users, u.email);
    outcome := if taken then EmailTaken else Registered;
  }

  /**
   * The account the registration form stores: the name trimmed, the address
   * trimmed and lower-cased, the password exactly as typed.
   */
  function NewAccount(name: string, email: string, password: string): (u: LocalUser)
    ensures Trimmed(u.name) && Trimmed(u.email)
    ensures Lower(u.email) == u.email
    ensures u.password == password
  {
    var t := Trim(email);
    LowerKeepsTrimmed(t);
    LowerIdempotent(t);
    LocalUser(Trim(name), Lower(t), password)
  }

  /**
   * The stored name is the typed one without its surrounding white space, and
   * the stored address the typed one without it, lower-cased.
   */
  lemma NewAccountOf(name: string, email: string, password: string)
    ensures IsTrimOf(NewAccount(name, email, password).name, name)
    ensures exists t :: IsTrimOf(t, email) && NewAccount(name, email, password).email == Lower(t)
  {
    TrimSplits(name);
    TrimSplits(email);
    assert IsTrimOf(Trim(email), email);
  }

  /** Appending an account whose lower-case address is not taken keeps the addresses distinct. */
  lemma AppendKeepsEmailsDistinct(users: seq<LocalUser>, u: LocalUser)
    requires EmailsDistinct(users)
    requires Lower(u.email) == u.email && !EmailTakenIn(users, u.email)
    ensures EmailsDistinct(users + [u])
  {
    var all := users + [u];
    forall i, j | 0 <= i < j < |all|
      ensures Lower(all[i].email) != Lower(all[j].email)
    {
      if j == |users| {
        assert all[i] == users[i] && all[j] == u;
      } else {
        assert all[i] == users[i] && all[j] == users[j];
      }
    }
  }

  /**
   * The login form trims what is typed, so a freshly registered account can be
   * signed into exactly when the typed address agrees with the registered one
   * ignoring case and surrounding white space, and the trimmed typed password
   * is the registered password.
   */
  lemma NewAccountLogin(name: string, email: string, password: string, typedEmail: string, typedPassword: string)
    ensures Matches(NewAccount(name, email, password), Trim(typedEmail), Trim(typedPassword))
        <==> Lower(Trim(typedEmail)) == Lower(Trim(email)) && password == Trim(typedPassword)
  {
    LowerIdempotent(Trim(email));
  }

  /**
   * Registration keeps the password untrimmed while login trims it: an account
   * whose password begins or ends with white space can never be signed into
   * through the stored list.
   */
  lemma PaddedPasswordNeverMatches(u: LocalUser, typedEmail: string, typedPassword: string)
    requires u.password != [] && (IsSpace(u.password[0]) || IsSpace(u.password[|u.password| - 1]))
    ensures !Matches(u, Trim(typedEmail), Trim(typedPassword))
  {
  }

  /** The renderer's module-level state. */
  class MapClient {
    var mapInitialized: bool
    var nextLayer: nat                      // the identity the next Leaflet layer gets

    var drawing: bool
    var routePoints: seq<LatLng>
    var routeMarkers: seq<Layer>
    var routeLine: Option<Layer>

    var selectingOrigin: bool
    var selectingDest: bool
    var originLatLng: Option<LatLng>
    var destLatLng: Option<LatLng>
    var originMarker: Option<Layer>
    var destMarker: Option<Layer>
    var planLine: Option<Layer>

    var startDisabled: bool
    var finishDisabled: bool
    var clearDisabled: bool
    var calcDisabled: bool

    var loginVisible: bool
    var registerVisible: bool
    var mapVisible: bool

    var users: seq<LocalUser>               // the `padondep_users` list
    var currentUser: Option<Session>        // the `padondep_currentUser` record

    /**
     * One marker per drawn point, a route line exactly while there are points,
     * at most one selection mode, and every layer handed out before.
     */
    ghost predicate Valid()
      reads this
    {
      && |routeMarkers| == |routePoints|
      && (routeLine.None? <==> routePoints == [])
      && !(selectingOrigin && selectingDest)
      && (forall i :: 0 <= i < |routeMarkers| ==> routeMarkers[i] < nextLayer)
      && (routeLine.Some? ==> routeLine.value < nextLayer)
    }

    /** The calculate button is disabled exactly when the origin or the destination is unset. */
    ghost predicate CalcAgrees()
      reads this
    {
      calcDisabled <==> originLatLng.None? || destLatLng.None?
    }

    /** Exactly one of the three screens is displayed. */
    ghost predicate OneScreen()
      reads this
    {
      (if loginVisible then 1 else 0) + (if registerVisible then 1 else 0) + (if mapVisible then 1 else 0) == 1
    }

    /**
     * The page as loaded: the login screen shown, no map, nothing picked or
     * drawn, and the buttons as the page markup sets them.
     */
    constructor (stored: seq<LocalUser>, session: Option<Session>,
                 startOff: bool, finishOff: bool, clearOff: bool, calcOff: bool)
      ensures Valid() && OneScreen() && loginVisible
      ensures !mapInitialized && !drawing && routePoints == [] && routeMarkers == []
      ensures !selectingOrigin && !selectingDest && originLatLng.None? && destLatLng.None?
      ensures users == stored && currentUser == session
      ensures startDisabled == startOff && finishDisabled == finishOff
      ensures clearDisabled == clearOff && calcDisabled == calcOff
    {
      mapInitialized, nextLayer := false, 0;
      drawing, routePoints, routeMarkers, routeLine := false, [], [], None;
      selectingOrigin, selectingDest := false, false;
      originLatLng, destLatLng := None, None;
      originMarker, destMarker, planLine := None, None, None;
      startDisabled, finishDisabled, clearDisabled, calcDisabled := startOff, finishOff, clearOff, calcOff;
      loginVisible, registerVisible, mapVisible := true, false, false;
      users, currentUser := stored, session;
    }

    /** A new Leaflet layer. */
    method NewLayer() returns (l: Layer)
      modifies this`nextLayer
      ensures l == old(nextLayer) && nextLayer == old(nextLayer) + 1
    {
      l := nextLayer;
      nextLayer := nextLayer + 1;
    }

    /** `initMap`: creates the map, with its click handler, once. */
    method InitMap()
      modifies this`mapInitialized
      ensures mapInitialized
    {
      if mapInitialized {
        return;
      }
      mapInitialized := true;
    }

    /** `maybeEnableCalc`. */
    method MaybeEnableCalc()
      modifies this`calcDisabled
      ensures CalcAgrees()
    {
      calcDisabled := !(originLatLng.Some? && destLatLng.Some?);
    }

    /** `calcPlannedRoute`: draws the origin-destination line, only when both are set. */
    method CalcPlannedRoute()
      modifies this`planLine, this`nextLayer
      ensures originLatLng.None? || destLatLng.None? ==>
        planLine == old(planLine) && nextLayer == old(nextLayer)
      ensures originLatLng.Some? && destLatLng.Some? ==>
        planLine == Some(old(nextLayer)) && nextLayer == old(nextLayer) + 1
    {
      if originLatLng.None? || destLatLng.None? {
        return;
      }
      var line := NewLayer();
      planLine := Some(line);
    }

    /** The calculate button. */
    method CalcRouteClick()
      requires Valid()
      modifies this`mapInitialized, this`planLine, this`nextLayer
      ensures Valid()
      ensures mapInitialized
      ensures originLatLng.None? || destLatLng.None? ==>
        planLine == old(planLine) && nextLayer == old(nextLayer)
      ensures originLatLng.Some? && destLatLng.Some? ==>
        planLine == Some(old(nextLayer)) && nextLayer == old(nextLayer) + 1
    {
      if !mapInitialized {
        InitMap();
      }
      CalcPlannedRoute();
    }

    /** `addRoutePoint`: the point and its marker go at the end; the route line is created by the first point. */
    method AddRoutePoint(p: LatLng)
      requires Valid()
      modifies this`routePoints, this`routeMarkers, this`routeLine, this`nextLayer
      ensures Valid()
      ensures routePoints == old(routePoints) + [p]
      ensures routeMarkers == old(routeMarkers) + [old(nextLayer)]
      ensures old(routeLine).Some? ==> routeLine == old(routeLine) && nextLayer == old(nextLayer) + 1
      ensures old(routeLine).None? ==> routeLine == Some(old(nextLayer) + 1) && nextLayer == old(nextLayer) + 2
    {
      routePoints := routePoints + [p];
      var m := NewLayer();
      routeMarkers := routeMarkers + [m];
      if routeLine.None? {
        var line := NewLayer();
        routeLine := Some(line);
      }
    }

    /** `clearRoute`: no points, no markers, no line, drawing off and the buttons reset. */
    method ClearRoute()
      requires Valid()
      modifies this`routePoints, this`routeMarkers, this`routeLine, this`drawing
      modifies this`startDisabled, this`finishDisabled, this`clearDisabled
      ensures Valid()
      ensures routePoints == [] && routeMarkers == [] && routeLine.None?
      ensures !drawing && !startDisabled && finishDisabled && clearDisabled
    {
      routePoints := [];
      routeMarkers := [];
      routeLine := None;
      startDisabled := false;
      finishDisabled := true;
      clearDisabled := true;
      drawing := false;
    }

    /** The start button: drawing on, start disabled, finish and clear enabled. */
    method StartClick()
      requires Valid()
      modifies this`mapInitialized, this`drawing, this`startDisabled, this`finishDisabled, this`clearDisabled
      ensures Valid()
      ensures mapInitialized && drawing
      ensures startDisabled && !finishDisabled && !clearDisabled
    {
      if !mapInitialized {
        InitMap();
      }
      drawing := true;
      startDisabled := true;
      finishDisabled := false;
      clearDisabled := false;
    }

    /** The finish button: drawing off with the points kept; clear stays enabled only when there are points. */
    method FinishClick()
      requires Valid()
      modifies this`drawing, this`startDisabled, this`finishDisabled, this`clearDisabled
      ensures Valid()
      ensures !drawing && !startDisabled && finishDisabled
      ensures clearDisabled <==> routePoints == []
    {
      drawing := false;
      startDisabled := false;
      finishDisabled := true;
      clearDisabled := |routePoints| == 0;
    }

    /** The clear button. */
    method ClearClick()
      requires Valid()
      modifies this`routePoints, this`routeMarkers, this`routeLine, this`drawing
      modifies this`startDisabled, this`finishDisabled, this`clearDisabled
      ensures Valid()
      ensures routePoints == [] && routeMarkers == [] && routeLine.None?
      ensures !drawing && !startDisabled && finishDisabled && clearDisabled
    {
      ClearRoute();
    }

    /**
     * The back button: forgets the session, removes the drawn route and
     * returns to the login screen. The drawing mode, the buttons, the
     * origin and destination are left as they were.
     */
    method BackClick()
      requires Valid()
      modifies this`currentUser, this`routeLine, this`routeMarkers, this`routePoints
      modifies this`mapVisible, this`loginVisible
      ensures Valid()
      ensures currentUser.None?
      ensures routePoints == [] && routeMarkers == [] && routeLine.None?
      ensures !mapVisible && loginVisible
    {
      currentUser := None;
      routeLine := None;
      routeMarkers := [];
      routePoints := [];
      mapVisible := false;
      loginVisible := true;
    }

    /** The select-origin button: origin selection on, destination selection off. */
    method SelectOriginClick()
      requires Valid()
      modifies this`mapInitialized, this`selectingOrigin, this`selectingDest
      ensures Valid()
      ensures mapInitialized && selectingOrigin && !selectingDest
    {
      if !mapInitialized {
        InitMap();
      }
      selectingOrigin := true;
      selectingDest := false;
    }

    /** The select-destination button: destination selection on, origin selection off. */
    method SelectDestClick()
      requires Valid()
      modifies this`mapInitialized, this`selectingOrigin, this`selectingDest
      ensures Valid()
      ensures mapInitialized && selectingDest && !selectingOrigin
    {
      if !mapInitialized {
        InitMap();
      }
      selectingDest := true;
      selectingOrigin := false;
    }

    /**
     * A click on the map, handled by the first mode that applies: picking the
     * origin, picking the destination, drawing; with none of them it does
     * nothing.
     */
    method MapClick(p: LatLng)
      requires Valid() && mapInitialized
      modifies this`originLatLng, this`originMarker, this`selectingOrigin
      modifies this`destLatLng, this`destMarker, this`selectingDest
      modifies this`calcDisabled, this`nextLayer
      modifies this`routePoints, this`routeMarkers, this`routeLine
      ensures Valid()
      ensures old(selectingOrigin) ==>
        && originLatLng == Some(p) && originMarker == Some(old(nextLayer)) && !selectingOrigin
        && nextLayer == old(nextLayer) + 1 && CalcAgrees()
        && destLatLng == old(destLatLng) && destMarker == old(destMarker) && selectingDest == old(selectingDest)
        && routePoints == old(routePoints) && routeMarkers == old(routeMarkers) && routeLine == old(routeLine)
      ensures !old(selectingOrigin) && old(selectingDest) ==>
        && destLatLng == Some(p) && destMarker == Some(old(nextLayer)) && !selectingDest
        && nextLayer == old(nextLayer) + 1 && CalcAgrees()
        && originLatLng == old(originLatLng) && originMarker == old(originMarker) && !selectingOrigin
        && routePoints == old(routePoints) && routeMarkers == old(routeMarkers) && routeLine == old(routeLine)
      ensures !old(selectingOrigin) && !old(selectingDest) ==>
        && originLatLng == old(originLatLng) && originMarker == old(originMarker) && !selectingOrigin
        && destLatLng == old(destLatLng) && destMarker == old(destMarker) && !selectingDest
        && calcDisabled == old(calcDisabled)
      ensures !old(selectingOrigin) && !old(selectingDest) && drawing ==>
        && routePoints == old(routePoints) + [p]
        && routeMarkers == old(routeMarkers) + [old(nextLayer)]
        && (old(routeLine).Some? ==> routeLine == old(routeLine))
      ensures !old(selectingOrigin) && !old(selectingDest) && !drawing ==>
        && routePoints == old(routePoints) && routeMarkers == old(routeMarkers)
        && routeLine == old(routeLine) && nextLayer == old(nextLayer)
    {
      if selectingOrigin {
        originLatLng := Some(p);
        var m := NewLayer();
        originMarker := Some(m);
        selectingOrigin := false;
        MaybeEnableCalc();
        return;
      }
      if selectingDest {
        destLatLng := Some(p);
        var m := NewLayer();
        destMarker := Some(m);
        selectingDest := false;
        MaybeEnableCalc();
        return;
      }
      if !drawing {
        return;
      }
      AddRoutePoint(p);
    }

    /** `showScreen`: the chosen screen is the only one displayed. */
    method ShowScreen(s: Screen)
      modifies this`loginVisible, this`registerVisible, this`mapVisible
      ensures OneScreen()
      ensures loginVisible <==> s == LoginScreen
      ensures registerVisible <==> s == RegisterScreen
      ensures mapVisible <==> s == MapScreen
    {
      loginVisible := false;
      registerVisible := false;
      mapVisible := false;
      match s
      case LoginScreen => loginVisible := true;
      case RegisterScreen => registerVisible := true;
      case MapScreen => mapVisible := true;
    }

    /** The "register" link on the login screen. */
    method ShowRegisterClick()
      requires Valid()
      modifies this`loginVisible, this`registerVisible, this`mapVisible
      ensures Valid()
      ensures OneScreen() && registerVisible
    {
      ShowScreen(RegisterScreen);
    }

    /** The back button of the registration screen. */
    method RegisterBackClick()
      requires Valid()
      modifies this`loginVisible, this`registerVisible, this`mapVisible
      ensures Valid()
      ensures OneScreen() && loginVisible
    {
      ShowScreen(LoginScreen);
    }

    /**
     * What a successful login does after its 50 ms delay: the session is
     * recorded when there is one, the map screen replaces the login screen,
     * the map is created and the start button is enabled.
     */
    method EnterMap(session: Option<Session>)
      requires Valid()
      modifies this`currentUser, this`loginVisible, this`mapVisible, this`mapInitialized, this`startDisabled
      ensures Valid()
      ensures currentUser == if session.Some? then session else old(currentUser)
      ensures !loginVisible && mapVisible && mapInitialized && !startDisabled
    {
      if session.Some? {
        currentUser := session;
      }
      loginVisible := false;
      mapVisible := true;
      InitMap();
      startDisabled := false;
    }

    /**
     * The login form. Both fields are trimmed and must be non-empty. With
     * `betaAllowAnyLogin` any such input is let in; otherwise the first stored
     * account that matches becomes the session. On success the map screen
     * replaces the login screen, the map is created and drawing can start.
     */
    method LoginSubmit(emailValue: string, passwordValue: string, betaAllowAnyLogin: bool) returns (outcome: LoginOutcome)
      requires Valid()
      modifies this`currentUser, this`loginVisible, this`mapVisible, this`mapInitialized, this`startDisabled
      ensures Valid()
      ensures outcome == MissingCredentials <==> Trim(emailValue) == [] || Trim(passwordValue) == []
      ensures outcome == InvalidCredentials <==>
        && Trim(emailValue) != [] && Trim(passwordValue) != [] && !betaAllowAnyLogin
        && forall i :: 0 <= i < |old(users)| ==> !Matches(old(users)[i], Trim(emailValue), Trim(passwordValue))
      ensures outcome == LoggedIn <==>
        && Trim(emailValue) != [] && Trim(passwordValue) != []
        && (betaAllowAnyLogin || exists i :: 0 <= i < |old(users)| && Matches(old(users)[i], Trim(emailValue), Trim(passwordValue)))
      ensures outcome == LoggedIn ==> !loginVisible && mapVisible && mapInitialized && !startDisabled
      ensures outcome == LoggedIn && !betaAllowAnyLogin ==>
        exists i :: 0 <= i < |old(users)| && Matches(old(users)[i], Trim(emailValue), Trim(passwordValue))
          && (forall j :: 0 <= j < i ==> !Matches(old(users)[j], Trim(emailValue), Trim(passwordValue)))
          && currentUser == Some(Session(old(users)[i].name, old(users)[i].email))
      ensures outcome == LoggedIn && betaAllowAnyLogin ==> currentUser == old(currentUser)
      ensures outcome != LoggedIn ==>
        && currentUser == old(currentUser) && loginVisible == old(loginVisible) && mapVisible == old(mapVisible)
        && mapInitialized == old(mapInitialized) && startDisabled == old(startDisabled)
    {
      var session;
      outcome, session := LoginCheck(users, emailValue, passwordValue, betaAllowAnyLogin);
      if outcome == LoggedIn {
        EnterMap(session);
      }
    }

    /**
     * The registration form. Every field must be non-empty (the name after
     * trimming), the confirmation must equal the password and the address
     * must not be taken ignoring case; the new account is then appended,
     * becomes the session, and the map screen is shown.
     */
    method RegisterSubmit(nameValue: string, emailValue: string, passValue: string, pass2Value: string)
      returns (outcome: RegisterOutcome)
      requires Valid()
      modifies this`users, this`currentUser, this`loginVisible, this`registerVisible, this`mapVisible
      modifies this`mapInitialized, this`startDisabled
      ensures Valid()
      ensures var u := NewAccount(nameValue, emailValue, passValue);
        var filled := u.name != [] && u.email != [] && passValue != [] && pass2Value != [];
        && (outcome == MissingField <==> !filled)
        && (outcome == PasswordMismatch <==> filled && passValue != pass2Value)
        && (outcome == EmailTaken <==> filled && passValue == pass2Value && EmailTakenIn(old(users), u.email))
        && (outcome == Registered <==> filled && passValue == pass2Value && !EmailTakenIn(old(users), u.email))
        && (outcome == Registered ==>
              && users == old(users) + [u] && currentUser == Some(Session(u.name, u.email))
              && OneScreen() && mapVisible && mapInitialized && !startDisabled)
      ensures outcome != Registered ==>
        && users == old(users) && currentUser == old(currentUser)
        && loginVisible == old(loginVisible) && registerVisible == old(registerVisible) && mapVisible == old(mapVisible)
        && mapInitialized == old(mapInitialized) && startDisabled == old(startDisabled)
      ensures EmailsDistinct(old(users)) ==> EmailsDistinct(users)
    {
      outcome := RegistrationCheck(users, nameValue, emailValue, passValue, pass2Value);
      if outcome != Registered {
        return;
      }
      var u := NewAccount(nameValue, emailValue, passValue);
      if EmailsDistinct(users) {
        AppendKeepsEmailsDistinct(users, u);
      }
      AddAccount(u);
    }

    /**
     * What a successful registration does: the account is appended to the
     * stored list and becomes the session; after the 50 ms delay the map
     * screen is shown, the map created and the start button enabled.
     */
    method AddAccount(u: LocalUser)
      requires Valid()
      modifies this`users, this`currentUser, this`loginVisible, this`registerVisible, this`mapVisible
      modifies this`mapInitialized, this`startDisabled
      ensures Valid()
      ensures users == old(users) + [u] && currentUser == Some(Session(u.name, u.email))
      ensures OneScreen() && mapVisible && mapInitialized && !startDisabled
    {
      users := users + [u];
      currentUser := Some(Session(u.name, u.email));
      ShowScreen(MapScreen);
      InitMap();
      startDisabled := false;
    }
  }
}

=== FILE: handlers.dfy ===
/**
 * The request handlers of the local Express API for `/api/users`,
 * `/api/auth/login` and `/api/routes`, over an in-memory copy of the
 * `usuario` and `routes` tables.
 */
module Handlers {
  import opened Optional
  import opened Text
  import opened Records

  /** The JSON body of a response. */
  datatype Body =
    | UserJson(user: UserDto)                // a bare user object
    | UserEnvelope(user: UserDto)            // `{ user }`
    | UserListJson(users: seq<UserDto>)
    | RouteJson(route: RouteDto)
    | RouteListJson(routes: seq<RouteDto>)
    | ErrorJson(message: string)             // `{ message }`
    | NoContent

  datatype Response = Response(status: int, body: Body)

  const UserNotFound := "Usuario no encontrado"
  const MissingUserData := "Faltan datos obligatorios"
  const DuplicateEmail := "Ya existe un usuario con ese correo"
  const MissingCredentials := "Correo y contrase\U{00F1}a son obligatorios"
  const BadCredentials := "Credenciales inv\U{00E1}lidas"
  const RouteNotFound := "Ruta no encontrada"
  const MissingRouteName := "El campo \"name\" es obligatorio"
  const InternalError := "Error interno"

  /** The body of `POST /api/users`. */
  datatype NewUser = NewUser(
    firstName: Option<string>,
    lastName: Option<string>,
    email: Option<string>,
    password: Option<string>)

  /** The body of `POST /api/routes` and `PUT /api/routes/:id`. */
  datatype RoutePayload = RoutePayload(
    name: Option<string>,
    originLat: Option<Degrees>,
    originLng: Option<Degrees>,
    destLat: Option<Degrees>,
    destLng: Option<Degrees>)

  /**
   * The `usuario` table as the schema constrains it: each row under its own
   * id, ids handed out from 1 and below `next`, and unique e-mail addresses.
   */
  ghost predicate UsersKeyed(users: map<nat, UserRow>, next: nat) {
    && next >= 1
    && (forall id :: id in users ==> 1 <= id < next && users[id].id == id)
    && (forall a, b :: a in users && b in users && a != b ==> users[a].email != users[b].email)
  }

  /** The `routes` table: each row under its own id, ids handed out from 1 and below `next`. */
  ghost predicate RoutesKeyed(routes: map<nat, RouteRow>, next: nat) {
    && next >= 1
    && (forall id :: id in routes ==> 1 <= id < next && routes[id].id == id)
  }

  /** Inserting a row under the next id with an address not in use keeps the table well formed. */
  lemma InsertUserKeyed(users: map<nat, UserRow>, next: nat, row: UserRow)
    requires UsersKeyed(users, next)
    requires row.id == next && !EmailInUse(users, row.email)
    ensures next !in users && UsersKeyed(users[next := row], next + 1)
  {
  }

  /** Replacing a row by one with the same id and address keeps the table well formed. */
  lemma ReplaceUserKeyed(users: map<nat, UserRow>, next: nat, id: nat, row: UserRow)
    requires UsersKeyed(users, next)
    requires id in users && row.id == id && row.email == users[id].email
    ensures UsersKeyed(users[id := row], next)
  {
  }

  /**
   * The keys of `m` below `n`, largest first: the row order of
   * `ORDER BY id DESC` over a table whose ids are all below `n`.
   */
  function KeysDescending<V>(m: map<nat, V>, n: nat): (ks: seq<nat>)
    ensures forall i, j :: 0 <= i < j < |ks| ==> ks[i] > ks[j]
    ensures forall i :: 0 <= i < |ks| ==> ks[i] < n && ks[i] in m
    ensures forall k :: k in m && k < n ==> k in ks
  {
    if n == 0 then []
    else if n - 1 in m then [n - 1] + KeysDescending(m, n - 1)
    else KeysDescending(m, n - 1)
  }

  /** Some row of `users` has the e-mail address `email`. */
  predicate EmailInUse(users: map<nat, UserRow>, email: string) {
    exists id :: id in users && users[id].email == email
  }

  /** The row `POST /api/users` inserts for a request that passed validation. */
  function NewUserRow(id: nat, req: NewUser, hash: string, now: Timestamp): (row: UserRow)
    requires Truthy(req.firstName)
    ensures row.id == id && row.nombre == StoredName(req.firstName.value, req.lastName)
    ensures row.email == NormalizeEmail(req.email) && row.passHash == hash && row.activo == 1
    ensures row.creadoEn == now && row.actualizadoEn == now && row.ultimoLogin.None?
  {
    UserRow(id, StoredName(req.firstName.value, req.lastName), NormalizeEmail(req.email), hash, 1, now, now, None)
  }

  /**
   * The user object `POST /api/users` answers with: its first name is the
   * first of all the words of the given first and last names, its last name
   * the remaining words joined by single spaces, and it has never logged in.
   */
  lemma CreatedUserShown(id: nat, req: NewUser, hash: string, now: Timestamp)
    requires Truthy(req.firstName)
    ensures var dto := MapUser(NewUserRow(id, req, hash, now));
      var ws := Words(req.firstName.value) + (if Truthy(req.lastName) then Words(req.lastName.value) else []);
      && dto.firstName == (if ws == [] then "" else ws[0])
      && dto.lastName == (if ws == [] then "" else Join(ws[1..], " "))
      && dto.name == StoredName(req.firstName.value, req.lastName)
      && dto.email == Some(NormalizeEmail(req.email)) && dto.active == Some(true) && dto.lastLogin.None?
  {
    var row := NewUserRow(id, req, hash, now);
    StoredNameWords(req.firstName.value, req.lastName);
    MapUserNames(row);
    WordsEmpty(row.nombre);
    TrimTrimmed(row.nombre);
  }

  /**
   * A user created with a one-word first name (white space around it allowed)
   * and a last name of single-spaced words is shown with exactly those names.
   */
  lemma CreatedUserKeepsNames(id: nat, req: NewUser, hash: string, now: Timestamp, first: string, lastWords: seq<string>)
    requires req.firstName.Some? && Words(req.firstName.value) == [first]
    requires AllWords(lastWords) && req.lastName == Some(Join(lastWords, " "))
    ensures MapUser(NewUserRow(id, req, hash, now)).firstName == first
    ensures MapUser(NewUserRow(id, req, hash, now)).lastName == Join(lastWords, " ")
  {
    CreatedUserShown(id, req, hash, now);
    WordsOfJoin(lastWords);
    var ws := [first] + (if Truthy(req.lastName) then lastWords else []);
    assert ws[1..] == if Truthy(req.lastName) then lastWords else [];
  }

  /**
   * A successful login: the credential is replaced when `migrated`, and
   * `ultimo_login` and the update time become `now`.
   */
  function AfterLogin(row: UserRow, migrated: bool, upgraded: string, now: Timestamp): (r: UserRow)
    ensures r.ultimoLogin == Some(now)
    ensures r.passHash == if migrated then upgraded else row.passHash
    ensures r.(passHash := row.passHash, ultimoLogin := row.ultimoLogin, actualizadoEn := row.actualizadoEn) == row
  {
    row.(passHash := if migrated then upgraded else row.passHash, ultimoLogin := Some(now), actualizadoEn := now)
  }

  /** The row a route request writes: every field taken from the payload, absent coordinates as null. */
  function RouteRowOf(id: nat, name: string, req: RoutePayload, createdAt: Timestamp, now: Timestamp): (row: RouteRow)
    ensures row.id == id && row.name == name
    ensures row.originLat == req.originLat && row.originLng == req.originLng
    ensures row.destLat == req.destLat && row.destLng == req.destLng
  {
    RouteRow(id, name, req.originLat, req.originLng, req.destLat, req.destLng, createdAt, now)
  }

  /** The users of `table` with an id below `n`, as the API shows them, largest id first. */
  function UserListing(table: map<nat, UserRow>, n: nat): (l: seq<UserDto>)
    requires forall id :: id in table ==> table[id].id == id
    ensures forall i, j :: 0 <= i < j < |l| ==> l[i].id > l[j].id
    ensures forall i :: 0 <= i < |l| ==> l[i].id in table && l[i].id < n && l[i] == MapUser(table[l[i].id])
    ensures forall id :: id in table && id < n ==> exists i :: 0 <= i < |l| && l[i].id == id
  {
    var ks := KeysDescending(table, n);
    var l := seq(|ks|, i requires 0 <= i < |ks| => MapUser(table[ks[i]]));
    assert forall i :: 0 <= i < |l| ==> l[i] == MapUser(table[ks[i]]) && l[i].id == ks[i];
    l
  }

  /** The routes of `table` with an id below `n`, as the API shows them, largest id first. */
  function RouteListing(table: map<nat, RouteRow>, n: nat): (l: seq<RouteDto>)
    requires forall id :: id in table ==> table[id].id == id
    ensures forall i, j :: 0 <= i < j < |l| ==> l[i].id > l[j].id
    ensures forall i :: 0 <= i < |l| ==> l[i].id in table && l[i].id < n && l[i] == MapRoute(table[l[i].id])
    ensures forall id :: id in table && id < n ==> exists i :: 0 <= i < |l| && l[i].id == id
  {
    var ks := KeysDescending(table, n);
    var l := seq(|ks|, i requires 0 <= i < |ks| => MapRoute(table[ks[i]]));
    assert forall i :: 0 <= i < |l| ==> l[i].id == ks[i];
    l
  }

  /** An address in use stays in use under any change of letter case, so `POST /api/users` answers 409 for it. */
  lemma CaseVariantInUse(users: map<nat, UserRow>, a: string, b: string)
    requires EmailInUse(users, NormalizeEmail(Some(a)))
    requires Lower(a) == Lower(b)
    ensures EmailInUse(users, NormalizeEmail(Some(b)))
  {
    NormalizeEmailIgnoresCase(a, b);
  }

  /** The route with the largest id below `n` heads the listing. */
  lemma NewestRouteFirst(table: map<nat, RouteRow>, n: nat)
    requires forall id :: id in table ==> table[id].id == id
    requires n >= 1 && n - 1 in table
    ensures var l := RouteListing(table, n); l != [] && l[0] == MapRoute(table[n - 1])
  {
    var l := RouteListing(table, n);
    var k :| 0 <= k < |l| && l[k].id == n - 1;
  }

  /**
   * Whether the migrated credential is written back or not, a successful
   * login answers with the same user object.
   */
  lemma UpgradeFailureInvisible(row: UserRow, upgraded: string, now: Timestamp)
    ensures MapUser(AfterLogin(row, true, upgraded, now)) == MapUser(AfterLogin(row, false, upgraded, now))
  {
    var kept := AfterLogin(row, false, upgraded, now);
    MapUserNames(kept);
    assert AfterLogin(row, true, upgraded, now) == kept.(passHash := upgraded);
  }

  /**
   * The API over the two tables. Ids are handed out by auto-increment and
   * never reused.
   */
  class RouteApi {
    var users: map<nat, UserRow>
    var routes: map<nat, RouteRow>
    var nextUserId: nat
    var nextRouteId: nat

    /** Each row sits under its own id, below the next id, and e-mail addresses are unique. */
    ghost predicate Valid()
      reads this
    {
      UsersKeyed(users, nextUserId) && RoutesKeyed(routes, nextRouteId)
    }

    constructor ()
      ensures Valid()
      ensures users == map[] && routes == map[]
      ensures nextUserId == 1 && nextRouteId == 1
    {
      users, routes := map[], map[];
      nextUserId, nextRouteId := 1, 1;
    }

    /** `GET /api/users`: every user, newest id first. */
    method ListUsers() returns (r: Response)
      requires Valid()
      ensures r.status == 200 && r.body.UserListJson?
      ensures var l := r.body.users;
        && (forall i, j :: 0 <= i < j < |l| ==> l[i].id > l[j].id)
        && (forall i :: 0 <= i < |l| ==> l[i].id in users && l[i] == MapUser(users[l[i].id]))
        && (forall id :: id in users ==> exists i :: 0 <= i < |l| && l[i].id == id)
    {
      r := Response(200, UserListJson(UserListing(users, nextUserId)));
    }

    /** `GET /api/users/:id`. */
    method GetUser(id: nat) returns (r: Response)
      ensures id in users ==> r == Response(200, UserJson(MapUser(users[id])))
      ensures id !in users ==> r == Response(404, ErrorJson(UserNotFound))
    {
      if id !in users {
        return Response(404, ErrorJson(UserNotFound));
      }
      r := Response(200, UserJson(MapUser(users[id])));
    }

    /** `POST /api/users`. `hash` is what `bcrypt.hash` returns for the password: a bcrypt value. */
    method CreateUser(req: NewUser, hash: string, now: Timestamp) returns (r: Response)
      requires Valid()
      requires IsBcryptHash(hash)
      modifies this`users, this`nextUserId
      ensures Valid()
      ensures routes == old(routes)
      ensures !Truthy(req.firstName) || !Truthy(req.email) || !Truthy(req.password) ==>
        && r == Response(400, ErrorJson(MissingUserData))
        && users == old(users) && nextUserId == old(nextUserId)
      ensures Truthy(req.firstName) && Truthy(req.email) && Truthy(req.password)
              && EmailInUse(old(users), NormalizeEmail(req.email)) ==>
        && r == Response(409, ErrorJson(DuplicateEmail))
        && users == old(users) && nextUserId == old(nextUserId)
      ensures Truthy(req.firstName) && Truthy(req.email) && Truthy(req.password)
              && !EmailInUse(old(users), NormalizeEmail(req.email)) ==>
        var row := NewUserRow(old(nextUserId), req, hash, now);
        && old(nextUserId) !in old(users)
        && users == old(users)[old(nextUserId) := row]
        && nextUserId == old(nextUserId) + 1
        && r == Response(201, UserEnvelope(MapUser(row)))
    {
      if !Truthy(req.firstName) || !Truthy(req.email) || !Truthy(req.password) {
        return Response(400, ErrorJson(MissingUserData));
      }
      var email := NormalizeEmail(req.email);
      if exists id :: id in users && users[id].email == email {
        return Response(409, ErrorJson(DuplicateEmail));
      }
      var row := NewUserRow(nextUserId, req, hash, now);
      InsertUser(row);
      r := Response(201, UserEnvelope(MapUser(row)));
    }

    /** `Usuario.create`: the row goes in under the next id. */
    method InsertUser(row: UserRow)
      requires Valid()
      requires row.id == nextUserId && !EmailInUse(users, row.email)
      modifies this`users, this`nextUserId
      ensures Valid()
      ensures old(nextUserId) !in old(users)
      ensures users == old(users)[old(nextUserId) := row] && nextUserId == old(nextUserId) + 1
    {
      InsertUserKeyed(users, nextUserId, row);
      users := users[nextUserId := row];
      nextUserId := nextUserId + 1;
    }

    /** `DELETE /api/users/:id`. */
    method DeleteUser(id: nat) returns (r: Response)
      requires Valid()
      modifies this`users
      ensures Valid()
      ensures id !in old(users) ==> r == Response(404, ErrorJson(UserNotFound)) && users == old(users)
      ensures id in old(users) ==> r == Response(204, NoContent) && users == old(users) - {id}
      ensures id !in users
    {
      if id !in users {
        return Response(404, ErrorJson(UserNotFound));
      }
      users := users - {id};
      r := Response(204, NoContent);
    }

    /**
     * `POST /api/auth/login`. `bcryptAccepts` is what `bcrypt.compare` answers
     * for the password and the stored hash; `upgraded` is what `bcrypt.hash`
     * returns for the password, used only when a legacy credential is
     * migrated, and `upgradeSaved` says whether writing it back succeeded (a
     * failed write is only logged).
     */
    method Login(email: Option<string>, password: Option<string>, bcryptAccepts: bool,
                 upgraded: string, upgradeSaved: bool, now: Timestamp)
      returns (r: Response)
      requires Valid()
      requires IsBcryptHash(upgraded)
      modifies this`users
      ensures Valid()
      ensures !Truthy(email) || !Truthy(password) ==>
        r == Response(400, ErrorJson(MissingCredentials)) && users == old(users)
      ensures Truthy(email) && Truthy(password) && !EmailInUse(old(users), NormalizeEmail(email)) ==>
        r == Response(401, ErrorJson(BadCredentials)) && users == old(users)
      ensures Truthy(email) && Truthy(password) ==>
        forall id :: id in old(users) && old(users)[id].email == NormalizeEmail(email) ==>
          var v := CheckCredential(bcryptAccepts, password.value, Some(old(users)[id].passHash));
          && (!v.matched ==> r == Response(401, ErrorJson(BadCredentials)) && users == old(users))
          && (v.matched ==>
                var row := AfterLogin(old(users)[id], v.migrate && upgradeSaved, upgraded, now);
                users == old(users)[id := row] && r == Response(200, UserEnvelope(MapUser(row))))
    {
      if !Truthy(email) || !Truthy(password) {
        return Response(400, ErrorJson(MissingCredentials));
      }
      var normalized := NormalizeEmail(email);
      if !exists id :: id in users && users[id].email == normalized {
        return Response(401, ErrorJson(BadCredentials));
      }
      var id :| id in users && users[id].email == normalized;
      var v := CheckCredential(bcryptAccepts, password.value, Some(users[id].passHash));
      if !v.matched {
        return Response(401, ErrorJson(BadCredentials));
      }
      var row := AfterLogin(users[id], v.migrate && upgradeSaved, upgraded, now);
      UpdateUser(id, row);
      r := Response(200, UserEnvelope(MapUser(row)));
    }

    /** `user.update`: the row under `id` is replaced by one with the same id and address. */
    method UpdateUser(id: nat, row: UserRow)
      requires Valid()
      requires id in users && row.id == id && row.email == users[id].email
      modifies this`users
      ensures Valid()
      ensures users == old(users)[id := row]
    {
      ReplaceUserKeyed(users, nextUserId, id, row);
      users := users[id := row];
    }

    /** `GET /api/routes`: every route, newest id first. */
    method ListRoutes() returns (r: Response)
      requires Valid()
      ensures r.status == 200 && r.body.RouteListJson?
      ensures var l := r.body.routes;
        && (forall i, j :: 0 <= i < j < |l| ==> l[i].id > l[j].id)
        && (forall i :: 0 <= i < |l| ==> l[i].id in routes && l[i] == MapRoute(routes[l[i].id]))
        && (forall id :: id in routes ==> exists i :: 0 <= i < |l| && l[i].id == id)
    {
      r := Response(200, RouteListJson(RouteListing(routes, nextRouteId)));
    }

    /** `GET /api/routes/:id`. */
    method GetRoute(id: nat) returns (r: Response)
      ensures id in routes ==> r == Response(200, RouteJson(MapRoute(routes[id])))
      ensures id !in routes ==> r == Response(404, ErrorJson(RouteNotFound))
    {
      if id !in routes {
        return Response(404, ErrorJson(RouteNotFound));
      }
      r := Response(200, RouteJson(MapRoute(routes[id])));
    }

    /** `POST /api/routes`: a route needs a non-empty name; absent coordinates are stored as null. */
    method CreateRoute(req: RoutePayload, now: Timestamp) returns (r: Response)
      requires Valid()
      modifies this`routes, this`nextRouteId
      ensures Valid()
      ensures users == old(users)
      ensures !Truthy(req.name) ==>
        r == Response(400, ErrorJson(MissingRouteName)) && routes == old(routes) && nextRouteId == old(nextRouteId)
      ensures Truthy(req.name) ==>
        var row := RouteRowOf(old(nextRouteId), req.name.value, req, now, now);
        && old(nextRouteId) !in old(routes)
        && routes == old(routes)[old(nextRouteId) := row]
        && nextRouteId == old(nextRouteId) + 1
        && r == Response(201, RouteJson(MapRoute(row)))
    {
      if !Truthy(req.name) {
        return Response(400, ErrorJson(MissingRouteName));
      }
      var row := RouteRowOf(nextRouteId, req.name.value, req, now, now);
      assert nextRouteId !in routes && row.id == nextRouteId;
      routes := routes[nextRouteId := row];
      nextRouteId := nextRouteId + 1;
      r := Response(201, RouteJson(MapRoute(row)));
    }

    /**
     * `PUT /api/routes/:id`: all five fields are overwritten, omitted
     * coordinates become null. The handler does not check the name; an
     * omitted one is null, which the NOT NULL `name` column refuses before
     * any row is looked at, so the request ends in the generic 500 error.
     */
    method UpdateRoute(id: nat, req: RoutePayload, now: Timestamp) returns (r: Response)
      requires Valid()
      modifies this`routes
      ensures Valid()
      ensures req.name.None? ==> r == Response(500, ErrorJson(InternalError)) && routes == old(routes)
      ensures req.name.Some? && id !in old(routes) ==>
        r == Response(404, ErrorJson(RouteNotFound)) && routes == old(routes)
      ensures req.name.Some? && id in old(routes) ==>
        var row := RouteRowOf(id, req.name.value, req, old(routes)[id].createdAt, now);
        routes == old(routes)[id := row] && r == Response(200, RouteJson(MapRoute(row)))
    {
      if req.name.None? {
        return Response(500, ErrorJson(InternalError));
      }
      if id !in routes {
        return Response(404, ErrorJson(RouteNotFound));
      }
      var row := RouteRowOf(id, req.name.value, req, routes[id].createdAt, now);
      assert row.id == id && 1 <= id < nextRouteId;
      routes := routes[id := row];
      r := Response(200, RouteJson(MapRoute(row)));
    }

    /** `DELETE /api/routes/:id`. */
    method DeleteRoute(id: nat) returns (r: Response)
      requires Valid()
      modifies this`routes
      ensures Valid()
      ensures id !in old(routes) ==> r == Response(404, ErrorJson(RouteNotFound)) && routes == old(routes)
      ensures id in old(routes) ==> r == Response(204, NoContent) && routes == old(routes) - {id}
      ensures id !in routes
    {
      if id !in routes {
        return Response(404, ErrorJson(RouteNotFound));
      }
      routes := routes - {id};
      r := Response(204, NoContent);
    }
  }
}

=== FILE: option.dfy ===
/** The optional value used wherever the JavaScript code reads a field that may be `null` or `undefined`. */
module Optional {

  datatype Option<+T> = None | Some(value: T) {

    /** The value, or `default` when absent (JavaScript's `x ?? default`). */
    function GetOr(default: T): T {
      match this
      case Some(v) => v
      case None => default
    }
  }
}

=== FILE: records.dfy ===
/**
 * Rows of the `usuario` and `routes` tables, the objects the API sends back for
 * them, and the pure helpers of the Express server: name splitting, row-to-object
 * mapping, e-mail normalisation and the credential check used at login.
 */
module Records {
  import opened Optional
  import opened Text

  /** A point in time, in milliseconds (a JavaScript `Date`). */
  type Timestamp = int

  /** A latitude or longitude, in degrees. */
  type Degrees = real

  /**
   * A row of `usuario`. The columns the schema declares NOT NULL are plain
   * fields; `ultimo_login` is the one nullable column.
   */
  datatype UserRow = UserRow(
    id: nat,                       // id_usuario
    nombre: string,
    email: string,
    passHash: string,              // pass_hash: a hash, or a legacy plain value
    activo: int,
    creadoEn: Timestamp,
    actualizadoEn: Timestamp,
    ultimoLogin: Option<Timestamp>)

  /** A row of `routes`: the coordinates are nullable columns. */
  datatype RouteRow = RouteRow(
    id: nat,
    name: string,
    originLat: Option<Degrees>,
    originLng: Option<Degrees>,
    destLat: Option<Degrees>,
    destLng: Option<Degrees>,
    createdAt: Timestamp,
    updatedAt: Timestamp)

  /** The user object the API returns; it has no credential field at all. */
  datatype UserDto = UserDto(
    id: nat,
    firstName: string,
    lastName: string,
    name: string,
    email: Option<string>,
    active: Option<bool>,          // None is JavaScript's `undefined`
    createdAt: Option<Timestamp>,
    updatedAt: Option<Timestamp>,
    lastLogin: Option<Timestamp>)

  /** The route object the API returns. */
  datatype RouteDto = RouteDto(
    id: nat,
    name: string,
    originLat: Option<Degrees>,
    originLng: Option<Degrees>,
    destLat: Option<Degrees>,
    destLng: Option<Degrees>,
    createdAt: Option<Timestamp>,
    updatedAt: Option<Timestamp>)

  datatype NameParts = NameParts(firstName: string, lastName: string)

  /** JavaScript truthiness of a string that may be missing: present and non-empty. */
  predicate Truthy(s: Option<string>) {
    s.Some? && s.value != ""
  }

  /** No name, or one made only of white space. */
  predicate Blank(fullName: Option<string>) {
    fullName.None? || AllSpace(fullName.value)
  }

  /**
   * `split(/\s+/)` applied to a trimmed string: its words, and one empty
   * chunk when the string is empty, so there is always at least one chunk.
   */
  function SplitOnSpaceRuns(t: string): (chunks: seq<string>)
    requires Trimmed(t)
    ensures |chunks| >= 1
    ensures t != [] ==> AllWords(chunks)
  {
    if t == [] then [""] else Words(t)
  }

  /**
   * `splitName`: the first word of the trimmed name, and the remaining words
   * joined by single spaces. A missing or empty name gives two empty parts.
   * The source's `chunks.length === 0` test can never succeed and is left out.
   */
  function SplitName(fullName: Option<string>): (p: NameParts)
    ensures !IsSpaceIn(p.firstName)
  {
    if !Truthy(fullName) then NameParts("", "")
    else
      var chunks := SplitOnSpaceRuns(Trim(fullName.value));
      NameParts(chunks[0], Join(chunks[1..], " "))
  }

  predicate IsSpaceIn(s: string) {
    exists i :: 0 <= i < |s| && IsSpace(s[i])
  }

  /**
   * What `splitName` gives for any name, however it is padded or spaced: the
   * first of its words, and the other words joined by single spaces.
   */
  lemma SplitNameWords(fullName: Option<string>)
    ensures var ws := if fullName.Some? then Words(fullName.value) else [];
      SplitName(fullName) == if ws == [] then NameParts("", "") else NameParts(ws[0], Join(ws[1..], " "))
  {
    if Truthy(fullName) {
      var t := Trim(fullName.value);
      WordsOfTrim(fullName.value);
      if t == [] {
        assert SplitOnSpaceRuns(t) == [""];
      }
    }
  }

  /**
   * A name made of words with any white space around and between them splits
   * into its first word and the remaining words joined by single spaces.
   */
  lemma SplitNameSpread(ws: seq<string>, gaps: seq<string>)
    requires ws != [] && AllWords(ws) && |gaps| == |ws| + 1 && Gaps(gaps)
    ensures SplitName(Some(Spread(ws, gaps))) == NameParts(ws[0], Join(ws[1..], " "))
  {
    WordsOfSpread(ws, gaps);
    SplitNameWords(Some(Spread(ws, gaps)));
  }

  /** The first name is empty exactly when the name is blank, and then so is the last name. */
  lemma SplitNameBlank(fullName: Option<string>)
    ensures SplitName(fullName).firstName == "" <==> Blank(fullName)
    ensures Blank(fullName) ==> SplitName(fullName) == NameParts("", "")
  {
    if Truthy(fullName) {
      TrimEmpty(fullName.value);
      var t := Trim(fullName.value);
      if t == [] {
        assert SplitOnSpaceRuns(t) == [""];
      } else {
        assert IsWord(SplitOnSpaceRuns(t)[0]);
      }
    }
  }

  /** A name made of words separated by single spaces splits into its first word and the rest. */
  lemma SplitNameOfJoin(ws: seq<string>)
    requires ws != [] && AllWords(ws)
    ensures SplitName(Some(Join(ws, " "))) == NameParts(ws[0], Join(ws[1..], " "))
  {
    var j := Join(ws, " ");
    JoinTrimmed(ws);
    JoinEnds(ws);
    TrimTrimmed(j);
    WordsOfJoin(ws);
  }

  /** `normalizeEmail`: trimmed and lower-cased, with a missing address read as the empty string. */
  function NormalizeEmail(email: Option<string>): (e: string)
    ensures Trimmed(e) && Lower(e) == e
    ensures email.None? ==> e == ""
  {
    var t := Trim(email.GetOr(""));
    LowerKeepsTrimmed(t);
    LowerIdempotent(t);
    Lower(t)
  }

  /** Normalising an address that is already normalised changes nothing. */
  lemma NormalizeEmailIdempotent(email: Option<string>)
    ensures NormalizeEmail(Some(NormalizeEmail(email))) == NormalizeEmail(email)
  {
    TrimTrimmed(NormalizeEmail(email));
  }

  /** The normalised address is the given one without its surrounding white space, lower-cased. */
  lemma NormalizeEmailOf(s: string)
    ensures exists t :: IsTrimOf(t, s) && NormalizeEmail(Some(s)) == Lower(t)
  {
    TrimSplits(s);
    assert IsTrimOf(Trim(s), s) && NormalizeEmail(Some(s)) == Lower(Trim(s));
  }

  /** An address that is already trimmed and lower case is kept as it is. */
  lemma NormalizeEmailKeeps(s: string)
    requires Trimmed(s) && Lower(s) == s
    ensures NormalizeEmail(Some(s)) == s
  {
    TrimTrimmed(s);
  }

  /** Addresses that differ only in letter case normalise to the same address. */
  lemma NormalizeEmailIgnoresCase(a: string, b: string)
    requires Lower(a) == Lower(b)
    ensures NormalizeEmail(Some(a)) == NormalizeEmail(Some(b))
  {
    LowerTrim(a);
    LowerTrim(b);
  }

  /** `isBcryptHash`: the value starts with the bcrypt marker `$2`. */
  function IsBcryptHash(value: string): (b: bool)
    ensures b <==> |value| >= 2 && value[0] == '$' && value[1] == '2'
  {
    "$2" <= value
  }

  /**
   * The outcome of checking a password against a stored credential: whether it
   * matched, and whether the stored value is a legacy one that must now be
   * replaced by a hash.
   */
  datatype Verdict = Verdict(matched: bool, migrate: bool)

  /**
   * The login handler's credential check. `bcryptAccepts` is the answer
   * `bcrypt.compare` gives for this password and stored value; it decides only
   * when the stored value is a bcrypt hash. Any other stored value is a legacy
   * credential that matches only the identical password and is then due for
   * migration; a null credential never matches.
   */
  function CheckCredential(bcryptAccepts: bool, password: string, stored: Option<string>): (v: Verdict)
    ensures v.migrate ==> v.matched
    ensures stored.None? ==> v == Verdict(false, false)
    ensures stored.Some? && IsBcryptHash(stored.value) ==> v == Verdict(bcryptAccepts, false)
    ensures stored.Some? && !IsBcryptHash(stored.value) ==> v.matched == (stored.value == password) && v.migrate == v.matched
  {
    match stored
    case None => Verdict(false, false)
    case Some(hash) =>
      if IsBcryptHash(hash) then Verdict(bcryptAccepts, false)
      else Verdict(hash == password, hash == password)
  }

  /**
   * A legacy plain credential that itself starts with `$2` is taken for a hash:
   * only `bcrypt.compare` decides, and even the identical password is neither
   * matched by equality nor migrated.
   */
  lemma LegacyLookalikeNotMigrated(bcryptAccepts: bool, password: string)
    requires IsBcryptHash(password)
    ensures CheckCredential(bcryptAccepts, password, Some(password)) == Verdict(bcryptAccepts, false)
  {
  }

  /**
   * A legacy credential is migrated once. With `compare` standing for
   * `bcrypt.compare`: the matching password asks for the migration whatever
   * bcrypt would say; once the stored value is replaced by a bcrypt hash that
   * `compare` accepts for the password, it differs from the plain value and
   * the same password still matches, now through bcrypt and with nothing left
   * to migrate.
   */
  lemma MigrationRoundTrip(compare: (string, string) -> bool, password: string, upgraded: string)
    requires !IsBcryptHash(password)
    requires IsBcryptHash(upgraded) && compare(password, upgraded)
    ensures CheckCredential(compare(password, password), password, Some(password)) == Verdict(true, true)
    ensures upgraded != password
    ensures CheckCredential(compare(password, upgraded), password, Some(upgraded)) == Verdict(true, false)
  {
  }

  /**
   * The name `POST /api/users` stores: the trimmed first name, a space and the
   * trimmed last name (when one is given), trimmed as a whole, falling back to
   * the trimmed first name when that is empty.
   */
  function StoredName(firstName: string, lastName: Option<string>): (name: string)
    ensures Trimmed(name)
  {
    var last := if Truthy(lastName) then Trim(lastName.value) else "";
    var fullName := Trim(Trim(firstName) + " " + last);
    if fullName != "" then fullName else Trim(firstName)
  }

  /** A word followed by one space trims back to the word. */
  lemma TrimPadded(w: string)
    requires IsWord(w)
    ensures Trim(w + " ") == w
  {
    var padded := w + " ";
    assert TrimStart(padded) == padded;
    assert padded[..|padded| - 1] == w;
    assert TrimEnd(padded) == TrimEnd(w);
    TrimTrimmed(w);
  }

  /** A one-word first name followed by words is stored as those words joined by single spaces. */
  lemma StoredNameOfWords(firstName: string, lastWords: seq<string>)
    requires IsWord(firstName) && AllWords(lastWords)
    ensures StoredName(firstName, Some(Join(lastWords, " "))) == Join([firstName] + lastWords, " ")
  {
    TrimTrimmed(firstName);
    var ws := [firstName] + lastWords;
    assert ws[0] == firstName && ws[1..] == lastWords;
    var last := Join(lastWords, " ");
    if lastWords == [] {
      TrimPadded(firstName);
      assert Trim(firstName) + " " + "" == firstName + " ";
    } else {
      JoinTrimmed(lastWords);
      TrimTrimmed(last);
      assert AllWords(ws);
      assert Join(ws, " ") == firstName + " " + last;
      JoinTrimmed(ws);
      TrimTrimmed(Join(ws, " "));
    }
  }

  /**
   * The stored name holds the words of the first name followed by those of
   * the last name, whatever white space surrounded or separated them.
   */
  lemma StoredNameWords(firstName: string, lastName: Option<string>)
    ensures Words(StoredName(firstName, lastName))
         == Words(firstName) + (if Truthy(lastName) then Words(lastName.value) else [])
  {
    var last := if Truthy(lastName) then Trim(lastName.value) else "";
    if Truthy(lastName) {
      WordsOfTrim(lastName.value);
    }
    var first := Trim(firstName);
    WordsOfTrim(firstName);
    WordsAround(first, " ", last);
    WordsOfTrim(first + " " + last);
    if Trim(first + " " + last) == "" {
      assert Words(first) == [];
    }
  }

  /**
   * A name stored from a first and a last name splits back into the first of
   * all their words and the remaining words joined by single spaces.
   */
  lemma StoredNameSplits(firstName: string, lastName: Option<string>)
    ensures var ws := Words(firstName) + (if Truthy(lastName) then Words(lastName.value) else []);
      SplitName(Some(StoredName(firstName, lastName)))
        == if ws == [] then NameParts("", "") else NameParts(ws[0], Join(ws[1..], " "))
  {
    StoredNameWords(firstName, lastName);
    SplitNameWords(Some(StoredName(firstName, lastName)));
  }

  /**
   * `mapUser` on a row read from `usuario`: the full name is the trimmed
   * `nombre`; the first name falls back to it when splitting yields none;
   * `active` holds when `activo` is the number 1. The credential is never read.
   */
  function MapUser(row: UserRow): (dto: UserDto)
    ensures dto.id == row.id
    ensures dto.active == Some(true) <==> row.activo == 1
    ensures dto.email == Some(row.email)
    ensures dto.createdAt == Some(row.creadoEn) && dto.updatedAt == Some(row.actualizadoEn)
    ensures dto.lastLogin == row.ultimoLogin
  {
    var fullName := Trim(row.nombre);
    var parts := SplitName(Some(fullName));
    UserDto(
      row.id,
      if parts.firstName != "" then parts.firstName else fullName,
      parts.lastName,
      if fullName != "" then fullName else Trim(parts.firstName + " " + parts.lastName),
      Some(row.email),
      Some(row.activo == 1),
      Some(row.creadoEn),
      Some(row.actualizadoEn),
      row.ultimoLogin)
  }

  /**
   * The user object does not depend on the stored credential, and its names
   * are those of the trimmed `nombre`: the full name exactly, the first name
   * empty only when the name is blank.
   */
  lemma MapUserNames(row: UserRow)
    ensures forall h :: MapUser(row.(passHash := h)) == MapUser(row)
    ensures MapUser(row).name == Trim(row.nombre)
    ensures MapUser(row).firstName == "" <==> AllSpace(row.nombre)
    ensures AllSpace(row.nombre) ==> MapUser(row).lastName == ""
    ensures var ws := Words(row.nombre);
      ws != [] ==> MapUser(row).firstName == ws[0] && MapUser(row).lastName == Join(ws[1..], " ")
  {
    var fullName := Trim(row.nombre);
    TrimEmpty(row.nombre);
    SplitNameBlank(Some(fullName));
    WordsOfTrim(row.nombre);
    SplitNameWords(Some(fullName));
    if fullName == "" {
      assert Trim(" ") == "" by {
        assert AllSpace(" ");
      }
    } else {
      assert !Blank(Some(fullName));
    }
  }

  /** `mapRoute`: every column is carried over, with null for an absent coordinate. */
  function MapRoute(row: RouteRow): (dto: RouteDto)
    ensures dto.id == row.id && dto.name == row.name
    ensures dto.originLat == row.originLat && dto.originLng == row.originLng
    ensures dto.destLat == row.destLat && dto.destLng == row.destLng
  {
    RouteDto(
      row.id, row.name,
      row.originLat, row.originLng, row.destLat, row.destLng,
      Some(row.createdAt), Some(row.updatedAt))
  }
}

=== FILE: text.dfy ===
/**
 * The JavaScript string operations the core relies on: white space as `\s` and
 * `String.prototype.trim` see it, `toLowerCase`, `split(/\s+/)` and `join`.
 */
module Text {

  /**
   * White space as JavaScript's `\s` class and `trim` see it, restricted to
   * the ASCII characters: space, tab, line feed, vertical tab, form feed and
   * carriage return.
   */
  predicate IsSpace(c: char) {
    c == ' ' || ('\t' <= c <= '\r')
  }

  /** Upper-case letters of the Basic Latin and Latin-1 blocks. */
  predicate IsUpper(c: char) {
    ('A' <= c <= 'Z') || ('\U{00C0}' <= c <= '\U{00DE}' && c != '\U{00D7}')
  }

  /** `toLowerCase` on one character. */
  function LowerChar(c: char): (d: char)
    ensures !IsUpper(d)
    ensures IsSpace(d) <==> IsSpace(c)
  {
    if IsUpper(c) then (c as int + 32) as char else c
  }

  function Lower(s: string): (r: string)
    ensures |r| == |s|
    ensures forall i :: 0 <= i < |s| ==> r[i] == LowerChar(s[i])
  {
    seq(|s|, i requires 0 <= i < |s| => LowerChar(s[i]))
  }

  /** Lower-casing twice is lower-casing once. */
  lemma LowerIdempotent(s: string)
    ensures Lower(Lower(s)) == Lower(s)
  {
    forall i | 0 <= i < |s|
      ensures Lower(Lower(s))[i] == Lower(s)[i]
    {
      var c := LowerChar(s[i]);
      assert !IsUpper(c);
    }
  }

  /** A string with no white space at either end. */
  predicate Trimmed(t: string) {
    t == [] || (!IsSpace(t[0]) && !IsSpace(t[|t| - 1]))
  }

  predicate AllSpace(s: string) {
    forall i :: 0 <= i < |s| ==> IsSpace(s[i])
  }

  /** Drops the leading white space: what is left is no longer than `s` and starts with a non-space character. */
  function TrimStart(s: string): (r: string)
    ensures |r| <= |s|
    ensures r != [] ==> !IsSpace(r[0])
  {
    if s != [] && IsSpace(s[0]) then TrimStart(s[1..]) else s
  }

  /** Drops the trailing white space: what is left is a prefix of `s` that ends with a non-space character. */
  function TrimEnd(s: string): (r: string)
    ensures |r| <= |s| && r == s[..|r|]
    ensures r != [] ==> !IsSpace(r[|r| - 1])
  {
    if s != [] && IsSpace(s[|s| - 1]) then TrimEnd(s[..|s| - 1]) else s
  }

  /** `String.prototype.trim`. */
  function Trim(s: string): (r: string)
    ensures |r| <= |s|
    ensures Trimmed(r)
  {
    var t := TrimStart(s);
    var r := TrimEnd(t);
    assert r != [] ==> r[0] == t[0];
    r
  }

  /** Dropping the leading white space leaves nothing exactly when `s` is all white space. */
  lemma {:induction false} TrimStartEmpty(s: string)
    ensures TrimStart(s) == [] <==> AllSpace(s)
    decreases |s|
  {
    if s != [] && IsSpace(s[0]) {
      TrimStartEmpty(s[1..]);
      AllSpaceTail(s);
    }
  }

  /** Dropping the trailing white space leaves nothing exactly when `s` is all white space. */
  lemma {:induction false} TrimEndEmpty(s: string)
    ensures TrimEnd(s) == [] <==> AllSpace(s)
    decreases |s|
  {
    if s != [] && IsSpace(s[|s| - 1]) {
      var p := s[..|s| - 1];
      TrimEndEmpty(p);
      if AllSpace(p) {
        forall i | 0 <= i < |s| ensures IsSpace(s[i]) {
          if i < |p| { assert s[i] == p[i]; }
        }
      }
    }
  }

  /** Trimming leaves nothing exactly when `s` is all white space. */
  lemma TrimEmpty(s: string)
    ensures Trim(s) == [] <==> AllSpace(s)
  {
    var t := TrimStart(s);
    TrimStartEmpty(s);
    TrimEndEmpty(t);
  }

  /** Trimming a string that is already trimmed changes nothing. */
  lemma TrimTrimmed(t: string)
    requires Trimmed(t)
    ensures Trim(t) == t
  {
  }

  /**
   * `t` is `s` with its surrounding white space removed: a trimmed infix of
   * `s` with nothing but white space before and after it.
   */
  predicate IsTrimOf(t: string, s: string) {
    && Trimmed(t)
    && exists i, j :: 0 <= i <= j <= |s| && t == s[i..j] && AllSpace(s[..i]) && AllSpace(s[j..])
  }

  /** What `TrimStart` drops is white space. */
  lemma {:induction false} TrimStartSuffix(s: string)
    ensures exists k :: 0 <= k <= |s| && TrimStart(s) == s[k..] && AllSpace(s[..k])
    decreases |s|
  {
    if s != [] && IsSpace(s[0]) {
      TrimStartSuffix(s[1..]);
      var k :| 0 <= k <= |s[1..]| && TrimStart(s[1..]) == s[1..][k..] && AllSpace(s[1..][..k]);
      assert s[1..][k..] == s[k + 1..];
      var dropped, before := s[..k + 1], s[1..][..k];
      forall m | 0 <= m < k + 1 ensures IsSpace(dropped[m]) {
        if m > 0 { assert dropped[m] == before[m - 1]; }
      }
    } else {
      assert TrimStart(s) == s[0..] && s[..0] == [];
    }
  }

  /** What `TrimEnd` drops is white space. */
  lemma {:induction false} TrimEndSpace(s: string)
    ensures AllSpace(s[|TrimEnd(s)|..])
    decreases |s|
  {
    if s != [] && IsSpace(s[|s| - 1]) {
      var p := s[..|s| - 1];
      TrimEndSpace(p);
      var n := |TrimEnd(p)|;
      forall m | 0 <= m < |s| - n ensures IsSpace(s[n..][m]) {
        if m < |p| - n { assert s[n..][m] == p[n..][m]; }
      }
    }
  }

  /** `Trim` removes exactly the surrounding white space. */
  lemma {:induction false} TrimSplits(s: string)
    ensures IsTrimOf(Trim(s), s)
  {
    TrimStartSuffix(s);
    var k :| 0 <= k <= |s| && TrimStart(s) == s[k..] && AllSpace(s[..k]);
    var t := s[k..];
    TrimEndSpace(t);
    var m := |TrimEnd(t)|;
    assert Trim(s) == s[k..k + m];
    assert s[k + m..] == t[m..];
  }

  /** Dropping a white-space prefix that ends before a non-space character is `TrimStart`. */
  lemma {:induction false} TrimStartAt(s: string, i: nat)
    requires i <= |s| && AllSpace(s[..i]) && (i < |s| ==> !IsSpace(s[i]))
    ensures TrimStart(s) == s[i..]
    decreases i
  {
    if i > 0 {
      assert IsSpace(s[..i][0]);
      var rest, pre := s[1..][..i - 1], s[..i];
      forall m | 0 <= m < i - 1 ensures IsSpace(rest[m]) {
        assert rest[m] == pre[m + 1];
      }
      TrimStartAt(s[1..], i - 1);
      assert s[1..][i - 1..] == s[i..];
    } else {
      assert s[0..] == s;
    }
  }

  /** Dropping a white-space suffix that starts after a non-space character is `TrimEnd`. */
  lemma {:induction false} TrimEndAt(s: string, j: nat)
    requires j <= |s| && AllSpace(s[j..]) && (0 < j ==> !IsSpace(s[j - 1]))
    ensures TrimEnd(s) == s[..j]
    decreases |s| - j
  {
    if j < |s| {
      var p := s[..|s| - 1];
      var q, r := p[j..], s[j..];
      assert IsSpace(r[|s| - 1 - j]);
      forall m | 0 <= m < |q| ensures IsSpace(q[m]) {
        assert q[m] == r[m];
      }
      TrimEndAt(p, j);
      assert p[..j] == s[..j];
    } else {
      assert s[..j] == s;
    }
  }

  /** Cutting white space before index `i` and from index `j` on, where non-space characters stand, is `Trim`. */
  lemma {:induction false} TrimAt(s: string, i: nat, j: nat)
    requires i < j <= |s| && AllSpace(s[..i]) && AllSpace(s[j..])
    requires !IsSpace(s[i]) && !IsSpace(s[j - 1])
    ensures Trim(s) == s[i..j]
  {
    TrimStartAt(s, i);
    var u := s[i..];
    assert u[j - i..] == s[j..];
    assert u[j - i - 1] == s[j - 1];
    TrimEndAt(u, j - i);
    assert u[..j - i] == s[i..j];
  }

  /** The string without its surrounding white space is unique: it is `Trim`. */
  lemma {:induction false} TrimOfUnique(t: string, s: string)
    requires IsTrimOf(t, s)
    ensures t == Trim(s)
  {
    var i, j :| 0 <= i <= j <= |s| && t == s[i..j] && AllSpace(s[..i]) && AllSpace(s[j..]);
    if t == [] {
      forall m | 0 <= m < |s| ensures IsSpace(s[m]) {
        if m < i { assert s[m] == s[..i][m]; } else { assert s[m] == s[j..][m - j]; }
      }
      TrimEmpty(s);
    } else {
      assert t[0] == s[i] && t[|t| - 1] == s[j - 1];
      TrimAt(s, i, j);
    }
  }

  /** `Trim(s)` is `t` exactly when `t` is `s` without its surrounding white space. */
  lemma {:induction false} TrimMeaning(s: string, t: string)
    ensures Trim(s) == t <==> IsTrimOf(t, s)
  {
    TrimSplits(s);
    if IsTrimOf(t, s) {
      TrimOfUnique(t, s);
    }
  }

  /** Lower-casing keeps a trimmed string trimmed. */
  lemma LowerKeepsTrimmed(t: string)
    requires Trimmed(t)
    ensures Trimmed(Lower(t))
  {
  }

  /** Lower-casing commutes with dropping leading white space. */
  lemma {:induction false} TrimStartLower(s: string)
    ensures TrimStart(Lower(s)) == Lower(TrimStart(s))
    decreases |s|
  {
    var l := Lower(s);
    if s != [] && IsSpace(s[0]) {
      assert IsSpace(l[0]);
      assert l[1..] == Lower(s[1..]);
      assert TrimStart(l) == TrimStart(l[1..]);
      TrimStartLower(s[1..]);
    } else {
      assert TrimStart(s) == s;
      assert l == [] || !IsSpace(l[0]);
    }
  }

  /** Lower-casing commutes with dropping trailing white space. */
  lemma {:induction false} TrimEndLower(s: string)
    ensures TrimEnd(Lower(s)) == Lower(TrimEnd(s))
    decreases |s|
  {
    var l := Lower(s);
    if s != [] && IsSpace(s[|s| - 1]) {
      assert IsSpace(l[|l| - 1]);
      assert l[..|s| - 1] == Lower(s[..|s| - 1]);
      assert TrimEnd(l) == TrimEnd(l[..|s| - 1]);
      TrimEndLower(s[..|s| - 1]);
    } else {
      assert TrimEnd(s) == s;
      assert l == [] || !IsSpace(l[|l| - 1]);
    }
  }

  /** Lower-casing commutes with trimming. */
  lemma LowerTrim(s: string)
    ensures Lower(Trim(s)) == Trim(Lower(s))
  {
    TrimStartLower(s);
    TrimEndLower(TrimStart(s));
  }

  /** A non-empty run of non-space characters. */
  predicate IsWord(w: string) {
    w != [] && forall i :: 0 <= i < |w| ==> !IsSpace(w[i])
  }

  predicate AllWords(ws: seq<string>) {
    forall i :: 0 <= i < |ws| ==> IsWord(ws[i])
  }

  /** The length of the run of non-space characters `s` starts with. */
  function LeadingRun(s: string): (n: nat)
    ensures n <= |s|
    ensures forall i :: 0 <= i < n ==> !IsSpace(s[i])
    ensures n < |s| ==> IsSpace(s[n])
  {
    if s == [] || IsSpace(s[0]) then 0 else 1 + LeadingRun(s[1..])
  }

  /** Skipping one white-space character keeps a string all white space or not. */
  lemma AllSpaceTail(s: string)
    requires s != [] && IsSpace(s[0])
    ensures AllSpace(s) <==> AllSpace(s[1..])
  {
    if AllSpace(s[1..]) {
      forall i | 1 <= i < |s| ensures IsSpace(s[i]) { assert s[1..][i - 1] == s[i]; }
    }
  }

  /** The maximal runs of non-space characters of `s`, in order. */
  function Words(s: string): (ws: seq<string>)
    ensures AllWords(ws)
    ensures s != [] && !IsSpace(s[0]) ==> ws != []
    decreases |s|
  {
    if s == [] then []
    else if IsSpace(s[0]) then Words(s[1..])
    else
      var n := LeadingRun(s);
      var rest := Words(s[n..]);
      assert IsWord(s[..n]);
      [s[..n]] + rest
  }

  /** A string has no words exactly when it is all white space. */
  lemma {:induction false} WordsEmpty(s: string)
    ensures Words(s) == [] <==> AllSpace(s)
    decreases |s|
  {
    if s != [] && IsSpace(s[0]) {
      WordsEmpty(s[1..]);
      AllSpaceTail(s);
    }
  }

  /** The number of characters of all the strings together. */
  function TotalLength(ws: seq<string>): nat {
    if ws == [] then 0 else |ws[0]| + TotalLength(ws[1..])
  }

  /** `Array.prototype.join(sep)`: the strings in order, with one `sep` between each two. */
  function Join(ws: seq<string>, sep: string): (r: string)
    ensures ws != [] ==> |r| == TotalLength(ws) + (|ws| - 1) * |sep|
    ensures ws != [] ==> r[..|ws[0]|] == ws[0]
  {
    if ws == [] then ""
    else if |ws| == 1 then ws[0]
    else ws[0] + sep + Join(ws[1..], sep)
  }

  /** Words joined by single spaces start with the first word's first letter and end with the last word's last letter. */
  lemma {:induction false} JoinEnds(ws: seq<string>)
    requires ws != [] && AllWords(ws)
    ensures var j := Join(ws, " ");
      j != [] && j[0] == ws[0][0] && j[|j| - 1] == ws[|ws| - 1][|ws[|ws| - 1]| - 1]
  {
    if |ws| > 1 {
      JoinEnds(ws[1..]);
    }
  }

  /** Words joined by single spaces form a trimmed string. */
  lemma JoinTrimmed(ws: seq<string>)
    requires AllWords(ws)
    ensures Trimmed(Join(ws, " "))
  {
    if ws != [] {
      JoinEnds(ws);
    }
  }

  /** A single word splits into itself. */
  lemma WordsOfWord(w: string)
    requires IsWord(w)
    ensures Words(w) == [w]
  {
    assert LeadingRun(w) == |w|;
    assert w[..|w|] == w && w[|w|..] == [];
  }

  /** A word, a space and a rest split into the word followed by the words of the rest. */
  lemma WordsOfWordSpace(w: string, rest: string)
    requires IsWord(w)
    ensures Words(w + " " + rest) == [w] + Words(rest)
  {
    var j := w + " " + rest;
    assert j[|w|] == ' ';
    assert LeadingRun(j) == |w|;
    assert j[..|w|] == w;
    var tail := j[|w|..];
    assert tail == [' '] + rest;
    assert tail[1..] == rest;
  }

  /** Splitting words joined by single spaces gives the words back. */
  lemma {:induction false} WordsOfJoin(ws: seq<string>)
    requires AllWords(ws)
    ensures Words(Join(ws, " ")) == ws
  {
    if |ws| == 1 {
      WordsOfWord(ws[0]);
    } else if |ws| > 1 {
      WordsOfWordSpace(ws[0], Join(ws[1..], " "));
      WordsOfJoin(ws[1..]);
    }
  }

  /** `LeadingRun` is the length of the first run: the `k` non-space characters followed by a space or the end. */
  lemma {:induction false} LeadingRunIs(s: string, k: nat)
    requires k <= |s| && (forall i :: 0 <= i < k ==> !IsSpace(s[i])) && (k < |s| ==> IsSpace(s[k]))
    ensures LeadingRun(s) == k
    decreases k
  {
    if k > 0 {
      assert !IsSpace(s[0]);
      forall i | 0 <= i < k - 1 ensures !IsSpace(s[1..][i]) {
        assert s[1..][i] == s[i + 1];
      }
      LeadingRunIs(s[1..], k - 1);
    }
  }

  /** Leading white space does not change the words. */
  lemma {:induction false} WordsSkipSpace(g: string, b: string)
    requires AllSpace(g)
    ensures Words(g + b) == Words(b)
    decreases |g|
  {
    if g == [] {
      assert g + b == b;
    } else {
      var s := g + b;
      assert s[0] == g[0];
      assert s[1..] == g[1..] + b;
      WordsSkipSpace(g[1..], b);
    }
  }

  /** A non-empty white-space run between two strings separates their words. */
  lemma {:induction false} WordsAround(a: string, g: string, b: string)
    requires AllSpace(g) && g != []
    ensures Words(a + g + b) == Words(a) + Words(b)
    decreases |a|
  {
    var s := a + g + b;
    if a == [] {
      assert s == g + b;
      WordsSkipSpace(g, b);
    } else if IsSpace(a[0]) {
      assert s[0] == a[0];
      assert s[1..] == a[1..] + g + b;
      WordsAround(a[1..], g, b);
    } else {
      var n := LeadingRun(a);
      forall i | 0 <= i < n ensures !IsSpace(s[i]) {
        assert s[i] == a[i];
      }
      if n < |a| {
        assert s[n] == a[n];
      } else {
        assert s[n] == g[0];
      }
      LeadingRunIs(s, n);
      assert s[..n] == a[..n];
      assert s[n..] == a[n..] + g + b;
      WordsAround(a[n..], g, b);
    }
  }

  /**
   * The words `ws` laid out with the white-space runs `gaps`: `gaps[0]`, then
   * each word followed by the next run.
   */
  function Spread(ws: seq<string>, gaps: seq<string>): (s: string)
    requires |gaps| == |ws| + 1
    decreases |ws|
  {
    if ws == [] then gaps[0] else gaps[0] + (ws[0] + Spread(ws[1..], gaps[1..]))
  }

  /** White-space runs; the ones between two words are non-empty. */
  predicate Gaps(gaps: seq<string>) {
    forall i :: 0 <= i < |gaps| ==> AllSpace(gaps[i]) && (0 < i < |gaps| - 1 ==> gaps[i] != [])
  }

  /** Dropping the first run keeps a sequence of runs well formed. */
  lemma {:induction false} GapsTail(gaps: seq<string>)
    requires gaps != [] && Gaps(gaps)
    ensures Gaps(gaps[1..])
  {
    var tail := gaps[1..];
    forall i | 0 <= i < |tail| ensures AllSpace(tail[i]) && (0 < i < |tail| - 1 ==> tail[i] != []) {
      assert tail[i] == gaps[i + 1];
    }
  }

  /** Trailing white space does not change the words. */
  lemma {:induction false} WordsDropSpace(a: string, q: string)
    requires AllSpace(q)
    ensures Words(a + q) == Words(a)
  {
    if q == [] {
      assert a + q == a;
    } else {
      assert a + q == a + q + [];
      WordsAround(a, q, []);
    }
  }

  /** One word followed by a layout of the remaining words: the step of `WordsOfSpread`. */
  lemma {:induction false} WordsOfSpreadStep(ws: seq<string>, gaps: seq<string>)
    requires ws != [] && AllWords(ws) && |gaps| == |ws| + 1 && Gaps(gaps)
    requires Words(Spread(ws[1..], gaps[1..])) == ws[1..]
    ensures Words(ws[0] + Spread(ws[1..], gaps[1..])) == ws
  {
    var rest := Spread(ws[1..], gaps[1..]);
    WordsOfWord(ws[0]);
    if |ws| == 1 {
      assert rest == gaps[1];
      WordsDropSpace(ws[0], gaps[1]);
    } else {
      var x := ws[1..][0] + Spread(ws[1..][1..], gaps[1..][1..]);
      assert rest == gaps[1] + x;
      assert ws[0] + rest == ws[0] + gaps[1] + x;
      WordsAround(ws[0], gaps[1], x);
      WordsSkipSpace(gaps[1], x);
    }
  }

  /** Words laid out with white-space runs split back into those words. */
  lemma {:induction false} WordsOfSpread(ws: seq<string>, gaps: seq<string>)
    requires AllWords(ws) && |gaps| == |ws| + 1 && Gaps(gaps)
    ensures Words(Spread(ws, gaps)) == ws
    decreases |ws|
  {
    if ws == [] {
      WordsEmpty(gaps[0]);
    } else {
      GapsTail(gaps);
      WordsOfSpread(ws[1..], gaps[1..]);
      WordsOfSpreadStep(ws, gaps);
      var rest := Spread(ws[1..], gaps[1..]);
      assert Spread(ws, gaps) == gaps[0] + (ws[0] + rest);
      WordsSkipSpace(gaps[0], ws[0] + rest);
    }
  }

  /** Laid out with an empty first run, non-empty words start with a non-space character. */
  lemma {:induction false} SpreadHead(ws: seq<string>, gaps: seq<string>)
    requires ws != [] && IsWord(ws[0]) && |gaps| == |ws| + 1
    ensures gaps[0] == [] ==> !IsSpace(Spread(ws, gaps)[0])
  {
    if gaps[0] == [] {
      var w, rest := ws[0], Spread(ws[1..], gaps[1..]);
      assert Spread(ws, gaps) == w + rest;
      assert (w + rest)[0] == w[0];
    }
  }

  /** A white-space character in front of a layout joins its first run. */
  lemma {:induction false} SpreadSpaceFirst(c: char, ws: seq<string>, g: seq<string>)
    requires IsSpace(c) && |g| == |ws| + 1 && Gaps(g)
    ensures var ng := [[c] + g[0]] + g[1..];
      |ng| == |ws| + 1 && Gaps(ng) && Spread(ws, ng) == [c] + Spread(ws, g)
  {
    var ng := [[c] + g[0]] + g[1..];
    if ws != [] {
      assert Spread(ws, ng) == ng[0] + ws[0] + Spread(ws[1..], g[1..]);
    }
    forall i | 0 <= i < |ng| ensures AllSpace(ng[i]) && (0 < i < |ng| - 1 ==> ng[i] != []) {
      if i > 0 { assert ng[i] == g[i]; }
    }
  }

  /** A word in front of a layout that starts with a space becomes its first word. */
  lemma {:induction false} SpreadWordFirst(w: string, rs: seq<string>, g: seq<string>)
    requires |g| == |rs| + 1 && Gaps(g) && (rs != [] ==> g[0] != [])
    ensures Gaps([""] + g) && Spread([w] + rs, [""] + g) == w + Spread(rs, g)
  {
    var ws, ng := [w] + rs, [""] + g;
    assert ws[1..] == rs && ng[1..] == g;
    forall i | 0 <= i < |ng| ensures AllSpace(ng[i]) && (0 < i < |ng| - 1 ==> ng[i] != []) {
      if i > 0 { assert ng[i] == g[i - 1]; }
    }
  }

  /** White-space runs that lay out the words of `s` so as to give `s` back. */
  function GapsOf(s: string): (g: seq<string>)
    ensures |g| == |Words(s)| + 1
    decreases |s|
  {
    if s == [] then [""]
    else if IsSpace(s[0]) then
      var g := GapsOf(s[1..]);
      [[s[0]] + g[0]] + g[1..]
    else [""] + GapsOf(s[LeadingRun(s)..])
  }

  /** Every string is its words laid out with white-space runs. */
  lemma {:induction false} SpreadOfWords(s: string)
    ensures Gaps(GapsOf(s)) && Spread(Words(s), GapsOf(s)) == s
    decreases |s|
  {
    if s == [] {
    } else if IsSpace(s[0]) {
      SpreadOfWords(s[1..]);
      SpreadSpaceFirst(s[0], Words(s), GapsOf(s[1..]));
      assert [s[0]] + s[1..] == s;
    } else {
      var n := LeadingRun(s);
      var r := s[n..];
      SpreadOfWords(r);
      SpreadOfWordStep(s, n, r);
    }
  }

  /** The step of `SpreadOfWords` for a string that starts with a word. */
  lemma {:induction false} SpreadOfWordStep(s: string, n: nat, r: string)
    requires s != [] && !IsSpace(s[0]) && n == LeadingRun(s) && r == s[n..]
    requires Gaps(GapsOf(r)) && Spread(Words(r), GapsOf(r)) == r
    ensures Gaps(GapsOf(s)) && Spread(Words(s), GapsOf(s)) == s
  {
    var rs, g := Words(r), GapsOf(r);
    assert Words(s) == [s[..n]] + rs;
    assert GapsOf(s) == [""] + g;
    if rs != [] {
      SpreadHead(rs, g);
    }
    SpreadWordFirst(s[..n], rs, g);
    assert s[..n] + r == s;
  }

  /** `Words(s)` is `ws` exactly when `s` is `ws` laid out with white-space runs. */
  lemma {:induction false} WordsMeaning(s: string, ws: seq<string>)
    requires AllWords(ws)
    ensures Words(s) == ws <==> exists gaps :: |gaps| == |ws| + 1 && Gaps(gaps) && Spread(ws, gaps) == s
  {
    SpreadOfWords(s);
    if Words(s) == ws {
      assert Spread(ws, GapsOf(s)) == s;
    }
    if exists gaps :: |gaps| == |ws| + 1 && Gaps(gaps) && Spread(ws, gaps) == s {
      var gaps :| |gaps| == |ws| + 1 && Gaps(gaps) && Spread(ws, gaps) == s;
      WordsOfSpread(ws, gaps);
    }
  }

  /** Dropping the leading white space does not change the words. */
  lemma {:induction false} WordsOfTrimStart(s: string)
    ensures Words(TrimStart(s)) == Words(s)
    decreases |s|
  {
    if s != [] && IsSpace(s[0]) {
      WordsOfTrimStart(s[1..]);
    }
  }

  /** Dropping the trailing white space does not change the words. */
  lemma {:induction false} WordsOfTrimEnd(s: string)
    ensures Words(TrimEnd(s)) == Words(s)
  {
    var r := TrimEnd(s);
    TrimEndSpace(s);
    WordsDropSpace(r, s[|r|..]);
    assert r + s[|r|..] == s;
  }

  /** Trimming does not change the words. */
  lemma {:induction false} WordsOfTrim(s: string)
    ensures Words(Trim(s)) == Words(s)
  {
    WordsOfTrimStart(s);
    WordsOfTrimEnd(TrimStart(s));
  }
}
